=== FILE: README.md ===
# Maotai Holding Enhancer — a verified model of the strategy core

The Maotai Holding Enhancer is a small quantitative toolkit for a single
stock position. It keeps a fixed holding and tries to earn extra yield with
intraday round trips ("doing T"). This project models its strategy core in
Dafny:

- **RegimeDetector** (`regime.dfy`). It labels every bar Risk-On, Volatile,
  Risk-Off or Low-Liquidity. The label comes from index, volume and
  volatility rolling features, with the first matching rule winning.
- **MaotaiTStrategy** (`signals.dfy`). It computes 20-bar Bollinger-style
  bands. It emits a regime-gated Sell signal and an unconditional Buy signal
  that overrides it. It maps each regime to a suggested position fraction.
- **MultiPeriodPredictor** (`predictor.dfy`). It computes a 5-versus-20
  moving-average trend on monthly, weekly and daily bars, and a 14-period ATR
  (average true range). From these it sets a buy/sell band of ±0.25 ATR
  around the last close. It applies the "resonance" rule: it acts only when
  all three trends agree.
- **TPlus0Backtester** (`tplus0.dfy`). Each day it fills at most one 100-share
  round trip against the day's low and high, using the previous day's
  prediction. It keeps a cash ledger beside an unchanged share position, plus
  a hold-only benchmark.
- **The multi-period driver** (`driver.dfy`). It builds one prediction per
  day from the history available that day, with no look-ahead. It then runs
  the simulator and counts trades, successes, the win rate and alpha.
- **BacktesterV2** (`overlay.dfy`). It is a simulated yield overlay. On each
  signalled day it wins or loses a share of the day's amplitude, decided by a
  regime-dependent win probability against a random draw. It compounds the
  result into a NAV (net asset value). Its metrics are total return, maximum
  drawdown, win rate and trade count.

Two shared modules support these:

- `frame.dfy` holds the pandas semantics the code relies on. NaN is `None`.
  Every comparison with NaN is false. Rolling means and standard deviations
  use the default `min_periods`. `Series.min` skips NaN.
- `market.dfy` holds the OHLCV bar.

The sample standard deviation (and the square root inside it) is a function
parameter `sd`. The model fixes exactly when a rolling std is defined: a full
window of at least two values with no NaN. It does not fix the formula. The
lemmas that need the std to be non-negative (band ordering, Sell versus Buy)
take that as the hypothesis `MaotaiTStrategy.NonNegativeStd`.

Four points of the code's behaviour, stated here because they are easy to
misread:

- **Regime warm-up.** Bars are counted from index 0. For a window W, only the
  first W − 1 bars (indices 0 to W − 2) are forced to Low-Liquidity
  (`RegimeDetector.WarmUpIsLowLiquidity`). From index W − 1 (the W-th bar)
  on, Risk-On and Risk-Off can fire. The Volatile label also waits for the
  60-bar volatility baseline: it never appears before index W + 59 (the
  (W + 60)-th bar) (`RegimeDetector.VolatileNeedsBaseline`).
- **Band width.** A comment in the predictor speaks of 0.3 ATR, but the code
  uses 0.25 ATR, and so does the model.
- **Effective warm-up of the multi-period driver.** The driver's guard asks
  for 20 daily, 5 weekly and 2 monthly bars, but each trend needs 20 bars of
  its own timeframe. A day with fewer than 20 weekly or 20 monthly bars
  therefore gets a Wait forecast and never trades
  (`MultiPeriodBacktest.ShortHistoryDoesNotTrade`). Over the driver's 730-day
  window (about 24 monthly bars) only the last few months can trade.
- **Weekly and monthly bars.** The driver fetches them through a loader
  method that the data loader does not define. Here they are plain inputs.

## Model

| member | source | states |
|---|---|---|
| Frame.RollingMeanOfSeries | strategies/maotai_t_strategy.py:26 | A rolling mean over a NaN-free series is defined exactly from the w-th position on, and is then the plain mean of the last w values |
| Frame.RollingStdOfSeries | strategies/maotai_t_strategy.py:27 | A rolling sample std is defined exactly when the window is full and has at least two values (ddof = 1), and is then `sd` of the last w values |
| Frame.MinDefined | strategies/backtester_v2.py:82 | `Series.min()` is NaN only when every value is NaN; otherwise it is one of the values and no defined value is smaller |
| Frame.Ratio | strategies/backtester_v2.py:87 | The guarded ratio is 0 without a denominator, lies in [0, 1] when k ≤ n, and times n gives back k |
| RegimeDetector.Select | strategies/regime_detector.py:38 | `np.select` returns the choice of the first true condition, and the default when none holds |
| RegimeDetector.Returns | strategies/regime_detector.py:25 | The daily return is NaN on the first bar and close/prior close − 1 after it |
| RegimeDetector.Classify | strategies/regime_detector.py:31-38 | Each of the four labels holds iff its rule holds and every earlier rule fails, so Risk-On wins over Volatile; Low-Liquidity iff no rule holds |
| RegimeDetector.Detect | strategies/regime_detector.py:16-40 | One row per bar, in order, each labelled by the first-match classification of that bar's features, with the feature columns the rules read |
| RegimeDetector.RiskOnExcludesRiskOff | strategies/regime_detector.py:32-34 | The Risk-On and Risk-Off rules never hold on the same bar, so Risk-Off is exactly "index below its average and not Volatile" |
| RegimeDetector.MovingAveragesAreWindowMeans | strategies/regime_detector.py:21-28 | Once W bars exist, the index and volume moving averages are the means of the last W values |
| RegimeDetector.VolatilityUndefinedEarly | strategies/regime_detector.py:25 | Volatility is NaN on the first W bars, because the first return is NaN |
| RegimeDetector.VolatileNeedsBaseline | strategies/regime_detector.py:33 | The Volatile rule can hold only when W ≥ 2 and the bar index is at least W + 59 |
| RegimeDetector.WarmUpIsLowLiquidity | strategies/regime_detector.py:21-38 | Every bar before the W-th is labelled Low-Liquidity |
| RegimeDetector.FirstBarIsLowLiquidity | strategies/regime_detector.py:31-38 | The first bar is Low-Liquidity for every window, including W = 1 |
| MaotaiTStrategy.SignalAt | strategies/maotai_t_strategy.py:26-38 | Buy iff the close is below the lower band; Sell iff the regime-gated sell rule holds and the buy rule does not; Hold iff neither; every bar before the 20th holds; Risk-On and Low-Liquidity bars never sell |
| MaotaiTStrategy.GenerateSignals | strategies/maotai_t_strategy.py:21-46 | One row per bar, in order, with that bar's signal and its regime's suggested position |
| MaotaiTStrategy.BandsOrdered | strategies/maotai_t_strategy.py:26-29 | Both bands exist exactly from the 20th bar on, the lower never exceeds the upper, and they are symmetric about the 20-bar mean |
| MaotaiTStrategy.SellIffSellRule | strategies/maotai_t_strategy.py:35-38 | The sell and buy rules never both hold, so Sell is exactly the sell rule and the buy override never erases a Sell |
| MaotaiTStrategy.SuggestedPosition | strategies/maotai_t_strategy.py:41-44 | With configured ratios in [0, 1] the suggested position is in [0, 1], and it is 0 for Low-Liquidity |
| MaotaiTStrategy.DefaultPositions | strategies/maotai_t_strategy.py:13-16 | The default table gives 0.2, 0.5, 0.8 and 0 |
| MultiPeriodPredictor.TrendCharacterization | strategies/multi_period_predictor.py:15-25 | Below 20 bars the trend is Flat; otherwise it is Up (Down) iff the mean of the last 5 closes is above (below) the mean of the last 20 |
| MultiPeriodPredictor.TrueRange | strategies/multi_period_predictor.py:31-35 | The true range is the largest of the day's range and the two gaps to the prior close: it dominates all three and equals one of them; the first bar has only the day's range |
| MultiPeriodPredictor.AtrCharacterization | strategies/multi_period_predictor.py:27-37 | The ATR exists iff there are at least 14 bars and is then the mean of the last 14 true ranges; on bars with low ≤ high it is non-negative |
| MultiPeriodPredictor.Resonance | strategies/multi_period_predictor.py:68-77 | BuyFirst iff all three trends are Up, SellFirst iff all are Down, Wait otherwise; RangeT never |
| MultiPeriodPredictor.PredictNextDay | strategies/multi_period_predictor.py:39-79 | The forecast carries the last daily date, the three trends and the resonance action, and reports the band even under Wait: buy = close − ATR/4 and sell = close + ATR/4, NaN when the ATR is |
| MultiPeriodPredictor.BandBracketsClose | strategies/multi_period_predictor.py:49-56 | With 14 or more daily bars, all with low ≤ high, the band exists, brackets the last close, and is half an ATR wide |
| TPlus0Backtester.Fill | strategies/t_plus_0_backtester.py:41-73 | No trade iff the opening leg does not fill (0 profit); the direction follows the action; success iff both legs fill; the profit of each outcome is revenue less cost with fees on both legs |
| TPlus0Backtester.SuccessProfitOnBand | strategies/t_plus_0_backtester.py:44-73 | A successful round trip on a predictor band earns 100 × (ATR/2 − 2 × fee × last close), whichever leg came first |
| TPlus0Backtester.ForcedCloseWorseThanTarget | strategies/t_plus_0_backtester.py:54-58 | On a well-formed bar with a fee in [0, 1), a closing leg forced at the close earns strictly less than the target price would have |
| TPlus0Backtester.BuyFirstSuccessExample | strategies/t_plus_0_backtester.py:45-53 | Buy 1700 and sell 1720 on a 1695–1725 day at the default fee of 0.0002 is a BuyFirst success worth 1931.6 |
| TPlus0Backtester.BuyFirstFailedCloseExample | strategies/t_plus_0_backtester.py:54-58 | The same day with a high of 1710 sells at the close |
| TPlus0Backtester.Ledger | strategies/t_plus_0_backtester.py:33-85 | One row per remaining day; each records that day's outcome; cash is the entry cash plus the profits accumulated so far |
| TPlus0Backtester.Run | strategies/t_plus_0_backtester.py:17-93 | Initial cash equals the first day's holding value; one row per later day; each row records the day's outcome, the unchanged holding and the benchmark; cash is initial cash plus accumulated profit |
| TPlus0Backtester.CashMovesOnlyByProfit | strategies/t_plus_0_backtester.py:75 | Each row's cash is the previous row's cash (initial cash for the first row) plus its own profit |
| TPlus0Backtester.LeadIsAccumulatedProfit | strategies/t_plus_0_backtester.py:75-91 | On every day, total value minus benchmark is exactly the round-trip profit accumulated so far |
| TPlus0Backtester.IdlePredictionsTrackBenchmark | strategies/t_plus_0_backtester.py:39-91 | When every prediction is Wait, nothing trades and total value equals the benchmark every day |
| MultiPeriodBacktest.UpTo | run_multi_period_backtest.py:28-29 | The filtered frame has as many rows as there are bars dated on or before the cut-off, holds only such bars, and holds every one of them |
| MultiPeriodBacktest.UpToOrderedIsPrefix | run_multi_period_backtest.py:28-29 | On date-ordered bars the filtered frame is a prefix of the input, so order is kept |
| MultiPeriodBacktest.PredictionAt | run_multi_period_backtest.py:24-37 | The placeholder iff fewer than 20 daily, 5 weekly or 2 monthly bars exist up to that day; otherwise a forecast dated that day whose buy and sell prices are defined and, on daily bars with low ≤ high, bracket that day's close half an ATR apart |
| MultiPeriodBacktest.Predictions | run_multi_period_backtest.py:23-37 | Exactly one prediction per daily bar, the i-th built from the history through day i |
| MultiPeriodBacktest.NoLookAhead | run_multi_period_backtest.py:25-29 | Later daily bars, and weekly or monthly bars dated after day i, do not change day i's prediction |
| MultiPeriodBacktest.MultiPeriodRun | run_multi_period_backtest.py:23-40 | Day j + 1 trades on the prediction built from the history through day j |
| MultiPeriodBacktest.ShortHistoryDoesNotTrade | run_multi_period_backtest.py:31-37 | A day with fewer than 20 weekly or 20 monthly bars up to it records no trade and 0 profit: that trend is Flat, so the action is Wait |
| MultiPeriodBacktest.PlaceholderDaysDoNotTrade | run_multi_period_backtest.py:31-33 | A day that trades on a placeholder, from short daily, weekly or monthly history, records no trade and 0 profit |
| MultiPeriodBacktest.WarmUpDaysDoNotTrade | run_multi_period_backtest.py:31-33 | Days 1 to 19, which always trade on a placeholder, record no trade and 0 profit |
| MultiPeriodBacktest.SuccessesAreTrades | run_multi_period_backtest.py:44-45 | Successful days never outnumber trade days |
| MultiPeriodBacktest.WinRate | run_multi_period_backtest.py:43-46 | The win rate is in [0, 1], is 0 without trades, and times the trade days gives the successes |
| MultiPeriodBacktest.AlphaIsProfitOverBenchmark | run_multi_period_backtest.py:48-50 | Alpha is the total round-trip profit over the final benchmark, so it is positive iff the round trips made money |
| MultiPeriodBacktest.BenchmarkPositive | run_multi_period_backtest.py:49-50 | On positive prices and shares the benchmark is positive, so alpha is defined |
| BacktesterV2.TProfitCharacterization | strategies/backtester_v2.py:27-57 | For any cost, days without an attempt enhance by 0 and the enhancement is NaN iff an attempt falls on the first row; on a well-formed bar with a positive cost, an attempt lies between the loss and win formulas, and a lost draw always loses money |
| BacktesterV2.RunOverlay | strategies/backtester_v2.py:12-66 | One output row per input row, carrying that row's enhancement, strategy NAV and benchmark NAV |
| BacktesterV2.NavStep | strategies/backtester_v2.py:18-64 | After the first row every NAV is defined and equals the previous NAV times (1 + the day's return); only row 1 can follow a NaN NAV, and there the product restarts from 1; the benchmark NAV starts at 1 |
| BacktesterV2.NoAttemptsTrackBenchmark | strategies/backtester_v2.py:18-64 | Without attempts, compounding the stock's returns telescopes to the benchmark NAV |
| BacktesterV2.PipelineRows | run_backtest.py:24-26 | The overlay input the detect, signals, run pipeline builds: each bar with its label, signal and suggested position |
| BacktesterV2.PipelineWarmUpTracksBenchmark | run_backtest.py:24-26 | In that pipeline the first 19 bars never attempt a round trip, so there is no NaN enhancement and the NAV equals the benchmark NAV |
| BacktesterV2.PeakSoFar | strategies/backtester_v2.py:80 | The running peak skips NaN: it is defined iff some NAV so far is, bounds every NAV so far, and is attained |
| BacktesterV2.RunningMax | strategies/backtester_v2.py:80 | `cummax` is NaN exactly where the NAV is NaN; elsewhere it bounds every NAV so far and is one of them |
| BacktesterV2.DrawdownRange | strategies/backtester_v2.py:80-81 | With positive NAVs a drawdown is defined wherever the NAV is, lies in (−1, 0], and is 0 exactly at a running high |
| BacktesterV2.MaxDrawdownRange | strategies/backtester_v2.py:80-82 | With positive NAVs, the maximum drawdown exists iff some NAV does, lies in (−1, 0], and is attained on some row |
| BacktesterV2.OverlayWinRate | strategies/backtester_v2.py:85-87 | Winning rows over rows with a nonzero enhancement: in [0, 1], 0 without trades, times the trades gives the wins |
| BacktesterV2.MaxDrawdownFacts | strategies/backtester_v2.py:80-82 | The maximum drawdown is no larger than any defined drawdown; on positive NAVs it exists iff some NAV does and lies in (−1, 0] |
| BacktesterV2.RunMaxDrawdown | strategies/backtester_v2.py:80-82 | A run's maximum drawdown is no larger than any defined daily drawdown; on positive NAVs it exists iff some day has a NAV and lies in (−1, 0] |
| BacktesterV2.CalculateMetrics | strategies/backtester_v2.py:72-87 | Total return and benchmark return are the final NAVs less 1; the maximum drawdown is the least defined drawdown and lies in (−1, 0] on positive NAVs; trades are the rows with a non-zero enhancement; the win rate lies in [0, 1], is 0 without trades, and times the trade count gives the number of winning rows |

## Left out

- Data loading (`utils/data_loader.py`), network access, the wall clock (`pd.Timestamp.now`) and CSV export. Bars and index closes are inputs.
- `main.py` and the console reports, plots and prints of both drivers. They only present values the model computes.
- The "tomorrow" report of the multi-period driver (lines 71-78). It is presentation only.
- The seeded random generator of BacktesterV2. The uniform draws are an input sequence with one draw per row.
- Annualised return and Sharpe ratio in `calculate_metrics`. They need real powers and square roots.
- The sample standard deviation formula. It is the abstract parameter `sd`; only its definedness is modelled.
- IEEE floating point. Prices and returns are exact reals, so rounding and overflow are not modelled.
- The simple `Backtester` class in `maotai_t_strategy.py`. It is a stub that computes nothing the strategy uses.
- The `stop_loss` and `take_profit` configuration entries, and the `initial_cash_multiplier` argument of `TPlus0Backtester`. No code reads them.
- Action strings other than the three the simulator tests (BuyFirst, SellFirst, RangeT). Any other string falls through to no trade, as Wait does, so the model represents them all by Wait.
- RegimeDetector.Returns: a zero prior close is taken as NaN. pandas gives an infinite change there; closes are positive in practice.
- BacktesterV2.Drawdown: a zero running maximum is taken as NaN. numpy gives a non-finite value there.
- MultiPeriodBacktest.Alpha: a zero final benchmark is taken as NaN. numpy gives a non-finite value there.
- BacktesterV2: the run requires positive closes, and the amplitude and returns divide by them.
- BacktesterV2.RunOverlay: requires at least one row. On an empty frame the source raises an IndexError when it reads the first close for the benchmark NAV.
- BacktesterV2.CalculateMetrics: requires at least one day. On an empty frame the source raises an IndexError when it reads the last NAV.
- TPlus0Backtester.Run: requires at least two daily bars. With fewer, the source fails while building its date-indexed result frame.
- BacktesterV2.TProfitCharacterization: states "no attempt ⇒ 0" in one direction only. An attempted round trip whose win formula happens to give exactly 0 is also 0, and the win-rate count then treats that day as untraded, as the source does.

=== FILE: driver.dfy ===
/** The multi-period backtest driver: one prediction per daily bar, built
    only from the history up to that bar, then the round-trip simulation and
    its trade, success, win-rate and excess-return figures. */
module MultiPeriodBacktest {
  import opened Frame
  import opened Market
  import opened MultiPeriodPredictor
  import opened TPlus0Backtester

  /** Minimum history before the predictor is consulted. */
  const MinDaily: nat := 20
  const MinWeekly: nat := 5
  const MinMonthly: nat := 2

  /** The mask `index <= date` as a predicate on bars. */
  function DatedBy(date: int): Bar -> bool {
    (b: Bar) => b.date <= date
  }

  /** `frame[frame.index <= date]`: the rows dated on or before `date`, in
      their original order (see `UpToOrderedIsPrefix` for time-ordered frames). */
  function UpTo(bars: seq<Bar>, date: int): (r: seq<Bar>)
    ensures |r| == Count(bars, DatedBy(date))
    ensures forall k :: 0 <= k < |r| ==> r[k].date <= date && r[k] in bars
    ensures forall k :: 0 <= k < |bars| && bars[k].date <= date ==> bars[k] in r
  {
    if |bars| == 0 then []
    else
      var rest := UpTo(bars[1..], date);
      assert forall k :: 1 <= k < |bars| ==> bars[k] == bars[1..][k - 1];
      if bars[0].date <= date then [bars[0]] + rest else rest
  }

  /** On a time-ordered frame the filter keeps a prefix: the bars it keeps are
      the first ones, in order. */
  lemma {:induction false} UpToOrderedIsPrefix(bars: seq<Bar>, date: int)
    requires DateOrdered(bars)
    ensures UpTo(bars, date) == bars[..|UpTo(bars, date)|]
  {
    if |bars| > 0 {
      var tail := bars[1..];
      assert DateOrdered(tail);
      UpToOrderedIsPrefix(tail, date);
      var rest := UpTo(tail, date);
      if bars[0].date <= date {
        assert [bars[0]] + rest == bars[..|rest| + 1];
      } else {
        assert |rest| == 0;
      }
    }
  }

  /** Filtering distributes over concatenation. */
  lemma {:induction false} UpToAppend(a: seq<Bar>, b: seq<Bar>, date: int)
    ensures UpTo(a + b, date) == UpTo(a, date) + UpTo(b, date)
  {
    if |a| > 0 {
      var ab := a + b;
      assert ab[0] == a[0] && ab[1..] == a[1..] + b;
      UpToAppend(a[1..], b, date);
      var rest := UpTo(a[1..], date) + UpTo(b, date);
      assert UpTo(ab, date) == if a[0].date <= date then [a[0]] + rest else rest;
      assert UpTo(a, date) == if a[0].date <= date then [a[0]] + UpTo(a[1..], date) else UpTo(a[1..], date);
    } else {
      assert a + b == b;
    }
  }

  /** Rows dated after `date` contribute nothing. */
  lemma {:induction false} UpToLater(b: seq<Bar>, date: int)
    requires forall k :: 0 <= k < |b| ==> b[k].date > date
    ensures UpTo(b, date) == []
  {
    if |b| > 0 {
      UpToLater(b[1..], date);
    }
  }

  /** The prediction stored for day `i`: the Wait placeholder while any of the
      three histories is too short, otherwise the predictor run on the daily
      bars through day `i` and the weekly and monthly bars dated no later. */
  function PredictionAt(daily: seq<Bar>, weekly: seq<Bar>, monthly: seq<Bar>, i: nat): (r: Prediction)
    requires i < |daily|
    ensures r == Placeholder <==>
              || i + 1 < MinDaily
              || |UpTo(weekly, daily[i].date)| < MinWeekly
              || |UpTo(monthly, daily[i].date)| < MinMonthly
    ensures r.Predicted? ==> r.forecast.date == daily[i].date
    ensures r.Predicted? ==> r.forecast.buyPrice.Some? && r.forecast.sellPrice.Some?
    ensures r.Predicted? && (forall k :: 0 <= k <= i ==> daily[k].low <= daily[k].high) ==>
              && r.forecast.buyPrice.value <= daily[i].close <= r.forecast.sellPrice.value
              && r.forecast.sellPrice.value - r.forecast.buyPrice.value == 0.5 * Atr(daily[..i + 1]).value
  {
    var d := daily[..i + 1];
    var w := UpTo(weekly, daily[i].date);
    var m := UpTo(monthly, daily[i].date);
    if |d| < MinDaily || |w| < MinWeekly || |m| < MinMonthly then Placeholder
    else
      var f := PredictNextDay(d, w, m);
      AtrCharacterization(d);
      assert (forall k :: 0 <= k < |d| ==> d[k].low <= d[k].high) ==>
               && f.buyPrice.value <= d[|d| - 1].close <= f.sellPrice.value
               && f.sellPrice.value - f.buyPrice.value == 0.5 * Atr(d).value by {
        if forall k :: 0 <= k < |d| ==> d[k].low <= d[k].high {
          BandBracketsClose(d, w, m);
        }
      }
      Predicted(f)
  }

  /** The prediction loop: exactly one prediction per daily bar. */
  function Predictions(daily: seq<Bar>, weekly: seq<Bar>, monthly: seq<Bar>): (r: seq<Prediction>)
    ensures |r| == |daily|
    ensures forall i :: 0 <= i < |daily| ==> r[i] == PredictionAt(daily, weekly, monthly, i)
  {
    seq(|daily|, i requires 0 <= i < |daily| => PredictionAt(daily, weekly, monthly, i))
  }

  /** No look-ahead: the prediction for day `i` is unchanged by any daily bars
      after day `i` and by weekly or monthly bars dated after day `i`. */
  lemma NoLookAhead(
    daily: seq<Bar>, dailyLater: seq<Bar>,
    weekly: seq<Bar>, weeklyLater: seq<Bar>,
    monthly: seq<Bar>, monthlyLater: seq<Bar>,
    i: nat)
    requires i < |daily|
    requires forall k :: 0 <= k < |weeklyLater| ==> weeklyLater[k].date > daily[i].date
    requires forall k :: 0 <= k < |monthlyLater| ==> monthlyLater[k].date > daily[i].date
    ensures Predictions(daily + dailyLater, weekly + weeklyLater, monthly + monthlyLater)[i]
            == Predictions(daily, weekly, monthly)[i]
  {
    var date := daily[i].date;
    assert (daily + dailyLater)[..i + 1] == daily[..i + 1];
    assert (daily + dailyLater)[i] == daily[i];
    UpToAppend(weekly, weeklyLater, date);
    UpToLater(weeklyLater, date);
    assert UpTo(weekly + weeklyLater, date) == UpTo(weekly, date);
    UpToAppend(monthly, monthlyLater, date);
    UpToLater(monthlyLater, date);
    assert UpTo(monthly + monthlyLater, date) == UpTo(monthly, date);
  }

  /** The whole multi-period backtest: predictions, then the simulator; day
      `j + 1` trades on the prediction built from the history through day `j`. */
  function MultiPeriodRun(daily: seq<Bar>, weekly: seq<Bar>, monthly: seq<Bar>, shares: int, fee: real): (r: Backtest)
    requires |daily| >= 2
    ensures |r.rows| == |daily| - 1
    ensures forall j :: 0 <= j < |r.rows| ==>
              Outcome(r.rows[j].kind, r.rows[j].profit) == Fill(daily[j + 1], PredictionAt(daily, weekly, monthly, j), fee)
  {
    Run(daily, Predictions(daily, weekly, monthly), shares, fee)
  }

  /** A day that trades on a placeholder prediction records no trade and no
      profit, whether the placeholder comes from short daily, weekly or
      monthly history. */
  lemma PlaceholderDaysDoNotTrade(daily: seq<Bar>, weekly: seq<Bar>, monthly: seq<Bar>, shares: int, fee: real, j: nat)
    requires |daily| >= 2 && j < |daily| - 1
    requires PredictionAt(daily, weekly, monthly, j) == Placeholder
    ensures MultiPeriodRun(daily, weekly, monthly, shares, fee).rows[j].kind == NoTrade
    ensures MultiPeriodRun(daily, weekly, monthly, shares, fee).rows[j].profit == 0.0
  {
  }

  /** Days 1 to 19 trade on placeholder predictions, so none of them trades. */
  lemma WarmUpDaysDoNotTrade(daily: seq<Bar>, weekly: seq<Bar>, monthly: seq<Bar>, shares: int, fee: real, j: nat)
    requires |daily| >= 2 && j < |daily| - 1
    requires j + 1 < MinDaily
    ensures MultiPeriodRun(daily, weekly, monthly, shares, fee).rows[j].kind == NoTrade
    ensures MultiPeriodRun(daily, weekly, monthly, shares, fee).rows[j].profit == 0.0
  {
    PlaceholderDaysDoNotTrade(daily, weekly, monthly, shares, fee, j);
  }

  /** The trend needs 20 bars of its own timeframe, so a day whose weekly or
      monthly history holds fewer than 20 bars sees a Flat trend there, a Wait
      action and no trade, even past the 5-week and 2-month guards. */
  lemma ShortHistoryDoesNotTrade(daily: seq<Bar>, weekly: seq<Bar>, monthly: seq<Bar>, shares: int, fee: real, j: nat)
    requires |daily| >= 2 && j < |daily| - 1
    requires |UpTo(weekly, daily[j].date)| < SlowWindow || |UpTo(monthly, daily[j].date)| < SlowWindow
    ensures MultiPeriodRun(daily, weekly, monthly, shares, fee).rows[j].kind == NoTrade
    ensures MultiPeriodRun(daily, weekly, monthly, shares, fee).rows[j].profit == 0.0
  {
    var p := PredictionAt(daily, weekly, monthly, j);
    if p.Predicted? {
      var w := UpTo(weekly, daily[j].date);
      var m := UpTo(monthly, daily[j].date);
      TrendCharacterization(w);
      TrendCharacterization(m);
      assert p.forecast.action == Wait;
    }
  }

  /** Rows with a trade (`trade_type != "None"`). */
  function TradeDays(rows: seq<LedgerRow>): nat {
    Count(rows, (row: LedgerRow) => row.kind != NoTrade)
  }

  /** Rows whose trade type contains "Success". */
  function SuccessDays(rows: seq<LedgerRow>): nat {
    Count(rows, (row: LedgerRow) => IsSuccess(row.kind))
  }

  /** Every success is a trade. */
  lemma SuccessesAreTrades(rows: seq<LedgerRow>)
    ensures SuccessDays(rows) <= TradeDays(rows)
  {
    CountMonotone(rows, (row: LedgerRow) => IsSuccess(row.kind), (row: LedgerRow) => row.kind != NoTrade);
  }

  /** Successes over trades, 0 without trades. */
  function WinRate(rows: seq<LedgerRow>): (r: real)
    ensures 0.0 <= r <= 1.0
    ensures TradeDays(rows) == 0 ==> r == 0.0
    ensures TradeDays(rows) > 0 ==> r * (TradeDays(rows) as real) == SuccessDays(rows) as real
  {
    SuccessesAreTrades(rows);
    Ratio(SuccessDays(rows), TradeDays(rows))
  }

  /** Final excess of the strategy over the benchmark, relative to the
      benchmark; a zero benchmark gives a non-finite float, modelled as NaN. */
  function Alpha(rows: seq<LedgerRow>): Option<real>
    requires |rows| > 0
  {
    var last := rows[|rows| - 1];
    if last.benchmarkValue == 0.0 then None
    else Some((last.totalValue - last.benchmarkValue) / last.benchmarkValue)
  }

  /** Alpha is the total round-trip profit over the final benchmark value,
      so it is positive exactly when the round trips made money overall. */
  lemma AlphaIsProfitOverBenchmark(daily: seq<Bar>, preds: seq<Prediction>, shares: int, fee: real)
    requires Covers(daily, preds)
    ensures var rows := Run(daily, preds, shares, fee).rows;
            var bench := rows[|rows| - 1].benchmarkValue;
            var profit := ProfitSum(daily, preds, fee, 1, |daily|);
            && (bench != 0.0 ==> Alpha(rows) == Some(profit / bench))
            && (bench > 0.0 ==> (Alpha(rows).value > 0.0 <==> profit > 0.0))
  {
    var rows := Run(daily, preds, shares, fee).rows;
    var bench := rows[|rows| - 1].benchmarkValue;
    var profit := ProfitSum(daily, preds, fee, 1, |daily|);
    LeadIsAccumulatedProfit(daily, preds, shares, fee, |rows| - 1);
    if bench > 0.0 {
      assert Alpha(rows).value * bench == profit;
    }
  }

  /** On positive prices and a positive share count the benchmark stays
      positive, so alpha is always defined. */
  lemma BenchmarkPositive(daily: seq<Bar>, preds: seq<Prediction>, shares: int, fee: real, j: nat)
    requires Covers(daily, preds) && j < |daily| - 1
    requires AllWellFormed(daily) && shares > 0
    ensures Run(daily, preds, shares, fee).rows[j].benchmarkValue > 0.0
  {
    var r := Run(daily, preds, shares, fee);
    assert WellFormed(daily[0]) && WellFormed(daily[j + 1]);
    assert r.initialCash > 0.0;
    assert (shares as real) * daily[j + 1].close > 0.0;
  }
}

=== FILE: frame.dfy ===
/** Numeric series as the strategies see them through pandas: NaN as an absent
    value, comparisons that are false whenever either side is NaN, and the
    rolling-window aggregates with pandas' default `min_periods` (a window is
    only aggregated when it is full and every value in it is defined). */
module Frame {

  /** A possibly-undefined value; `None` plays the part of NaN. */
  datatype Option<+T> = None | Some(value: T)

  /** `a > b` in numpy: false when either side is NaN. */
  predicate Gt(a: Option<real>, b: Option<real>) {
    a.Some? && b.Some? && a.value > b.value
  }

  /** `a < b` in numpy: false when either side is NaN. */
  predicate Lt(a: Option<real>, b: Option<real>) {
    a.Some? && b.Some? && a.value < b.value
  }

  /** `a <= b` in numpy: false when either side is NaN. */
  predicate Le(a: Option<real>, b: Option<real>) {
    a.Some? && b.Some? && a.value <= b.value
  }

  /** `a >= b` in numpy: false when either side is NaN. */
  predicate Ge(a: Option<real>, b: Option<real>) {
    a.Some? && b.Some? && a.value >= b.value
  }

  function Abs(x: real): real {
    if x < 0.0 then -x else x
  }

  function Max(a: real, b: real): real {
    if a >= b then a else b
  }

  function Sum(xs: seq<real>): real {
    if |xs| == 0 then 0.0 else xs[0] + Sum(xs[1..])
  }

  function Mean(xs: seq<real>): real
    requires |xs| > 0
  {
    Sum(xs) / (|xs| as real)
  }

  lemma {:induction false} SumLowerBound(xs: seq<real>, lo: real)
    requires forall k :: 0 <= k < |xs| ==> lo <= xs[k]
    ensures (|xs| as real) * lo <= Sum(xs)
  {
    if |xs| > 0 {
      SumLowerBound(xs[1..], lo);
      assert (|xs| as real) * lo == lo + ((|xs| - 1) as real) * lo;
    }
  }

  /** The mean of a window is at least any lower bound of its values. */
  lemma MeanLowerBound(xs: seq<real>, lo: real)
    requires |xs| > 0
    requires forall k :: 0 <= k < |xs| ==> lo <= xs[k]
    ensures lo <= Mean(xs)
  {
    SumLowerBound(xs, lo);
    var n := |xs| as real;
    assert Mean(xs) - lo == (Sum(xs) - n * lo) / n;
  }

  predicate AllSome(xs: seq<Option<real>>) {
    forall k :: 0 <= k < |xs| ==> xs[k].Some?
  }

  /** The defined values of a series that has no NaN. */
  function Values(xs: seq<Option<real>>): (r: seq<real>)
    requires AllSome(xs)
    ensures |r| == |xs|
    ensures forall k :: 0 <= k < |xs| ==> xs[k] == Some(r[k])
  {
    seq(|xs|, k requires 0 <= k < |xs| => xs[k].value)
  }

  /** A series of plain numbers seen as a series that may hold NaN. */
  function Lift(xs: seq<real>): (r: seq<Option<real>>)
    ensures |r| == |xs|
    ensures forall k :: 0 <= k < |xs| ==> r[k] == Some(xs[k])
  {
    seq(|xs|, k requires 0 <= k < |xs| => Some(xs[k]))
  }

  /** `xs.rolling(w).mean()` at position `i`: defined only when the `w` values
      ending at `i` exist and none is NaN. */
  function RollingMean(xs: seq<Option<real>>, w: nat, i: nat): Option<real>
    requires i < |xs|
  {
    if 1 <= w <= i + 1 && AllSome(xs[i + 1 - w..i + 1])
    then Some(Mean(Values(xs[i + 1 - w..i + 1])))
    else None
  }

  /** `xs.rolling(w).std()` at position `i`, with the sample standard deviation
      `sd` left abstract: defined only on a full window of at least two values
      (ddof = 1) none of which is NaN. */
  function RollingStd(xs: seq<Option<real>>, w: nat, i: nat, sd: seq<real> -> real): Option<real>
    requires i < |xs|
  {
    if 2 <= w <= i + 1 && AllSome(xs[i + 1 - w..i + 1])
    then Some(sd(Values(xs[i + 1 - w..i + 1])))
    else None
  }

  /** On a series without NaN, the rolling mean is defined exactly from the
      `w`-th position on, and is the plain mean of the last `w` values. */
  lemma RollingMeanOfSeries(xs: seq<real>, w: nat, i: nat)
    requires i < |xs|
    ensures RollingMean(Lift(xs), w, i).Some? <==> 1 <= w <= i + 1
    ensures 1 <= w <= i + 1 ==> RollingMean(Lift(xs), w, i) == Some(Mean(xs[i + 1 - w..i + 1]))
  {
    if 1 <= w <= i + 1 {
      var win := Lift(xs)[i + 1 - w..i + 1];
      assert AllSome(win);
      assert Values(win) == xs[i + 1 - w..i + 1];
    }
  }

  /** On a series without NaN, the rolling std is defined exactly from the
      `w`-th position on (for `w >= 2`), and is `sd` of the last `w` values. */
  lemma RollingStdOfSeries(xs: seq<real>, w: nat, i: nat, sd: seq<real> -> real)
    requires i < |xs|
    ensures RollingStd(Lift(xs), w, i, sd).Some? <==> 2 <= w <= i + 1
    ensures 2 <= w <= i + 1 ==> RollingStd(Lift(xs), w, i, sd) == Some(sd(xs[i + 1 - w..i + 1]))
  {
    if 2 <= w <= i + 1 {
      var win := Lift(xs)[i + 1 - w..i + 1];
      assert AllSome(win);
      assert Values(win) == xs[i + 1 - w..i + 1];
    }
  }

  /** `Series.min()`: the least defined value, NaN when every value is NaN. */
  function MinDefined(xs: seq<Option<real>>): (r: Option<real>)
    ensures r.Some? <==> exists k :: 0 <= k < |xs| && xs[k].Some?
    ensures r.Some? ==> r in xs
    ensures r.Some? ==> forall k :: 0 <= k < |xs| && xs[k].Some? ==> r.value <= xs[k].value
  {
    if |xs| == 0 then None
    else
      var rest := MinDefined(xs[1..]);
      assert forall k :: 1 <= k < |xs| ==> xs[k] == xs[1..][k - 1];
      match xs[0]
      case None => rest
      case Some(v) => if rest.Some? && rest.value < v then rest else Some(v)
  }

  /** Number of elements satisfying `p`. */
  function Count<T>(xs: seq<T>, p: T -> bool): (r: nat)
    ensures r <= |xs|
  {
    if |xs| == 0 then 0 else (if p(xs[0]) then 1 else 0) + Count(xs[1..], p)
  }

  /** Counting a weaker condition never gives fewer elements. */
  lemma {:induction false} CountMonotone<T>(xs: seq<T>, p: T -> bool, q: T -> bool)
    requires forall k :: 0 <= k < |xs| && p(xs[k]) ==> q(xs[k])
    ensures Count(xs, p) <= Count(xs, q)
  {
    if |xs| > 0 {
      assert forall k :: 0 <= k < |xs| - 1 ==> xs[1..][k] == xs[k + 1];
      CountMonotone(xs[1..], p, q);
    }
  }

  /** `k / n if n > 0 else 0`, the guarded ratio both win rates use. */
  function Ratio(k: nat, n: nat): (r: real)
    ensures n == 0 ==> r == 0.0
    ensures k <= n ==> 0.0 <= r <= 1.0
    ensures n > 0 ==> r * (n as real) == k as real
  {
    if n > 0 then (k as real) / (n as real) else 0.0
  }
}

=== FILE: market.dfy ===
/** Daily (or resampled weekly/monthly) price bars, as the data loader hands
    them to the strategies: one bar per period, in time order. */
module Market {

  /** One OHLCV bar; `date` is the period's timestamp as an ordinal. */
  datatype Bar = Bar(date: int, open: real, high: real, low: real, close: real, volume: real)

  /** The data invariant of a bar: positive prices inside the day's range. */
  predicate WellFormed(b: Bar) {
    && 0.0 < b.low
    && b.low <= b.open <= b.high
    && b.low <= b.close <= b.high
    && 0.0 <= b.volume
  }

  predicate AllWellFormed(bars: seq<Bar>) {
    forall k :: 0 <= k < |bars| ==> WellFormed(bars[k])
  }

  /** Bars in time order (non-decreasing dates), as a date-indexed frame is. */
  predicate DateOrdered(bars: seq<Bar>) {
    forall k, l :: 0 <= k <= l < |bars| ==> bars[k].date <= bars[l].date
  }

  /** The `close` column. */
  function Closes(bars: seq<Bar>): (r: seq<real>)
    ensures |r| == |bars|
    ensures forall k :: 0 <= k < |bars| ==> r[k] == bars[k].close
  {
    seq(|bars|, k requires 0 <= k < |bars| => bars[k].close)
  }

  /** The `volume` column. */
  function Volumes(bars: seq<Bar>): (r: seq<real>)
    ensures |r| == |bars|
    ensures forall k :: 0 <= k < |bars| ==> r[k] == bars[k].volume
  {
    seq(|bars|, k requires 0 <= k < |bars| => bars[k].volume)
  }
}

=== FILE: overlay.dfy ===
/** The yield-overlay backtester: on each signalled day a round trip is
    assumed to capture or give back a fraction of the day's amplitude, decided
    by a regime-dependent win probability against a random draw; the daily
    strategy return is the stock's own return plus that enhancement, and the
    net asset value is their running product. The random draws are an input. */
module BacktesterV2 {
  import opened Frame
  import opened Market
  import opened RegimeDetector
  import opened MaotaiTStrategy

  /** Share of the amplitude captured on a win. */
  const WinCapture: real := 0.3
  /** Share of the amplitude given back on a loss. */
  const LossGiveBack: real := 0.2

  /** One input row: the bar with its regime, signal and suggested position. */
  datatype OverlayRow = OverlayRow(bar: Bar, regime: Regime, signal: Signal, tPos: real)

  predicate PositiveCloses(rows: seq<OverlayRow>) {
    forall k :: 0 <= k < |rows| ==> rows[k].bar.close > 0.0
  }

  /** Rows, draws and closes that a run accepts: at least one row (the
      benchmark divides by the first close), one draw per row (as
      `rand(len(df))` produces) and positive closes to divide by. */
  predicate Inputs(rows: seq<OverlayRow>, draws: seq<real>) {
    |rows| > 0 && |draws| == |rows| && PositiveCloses(rows)
  }

  function WinProbability(regime: Regime): real {
    match regime
    case Volatile => 0.7
    case RiskOff => 0.6
    case RiskOn => 0.4
    case LowLiquidity => 0.5
  }

  /** A round trip is assumed on days with a signal and a positive position. */
  predicate Attempts(row: OverlayRow) {
    row.signal != Hold && row.tPos > 0.0
  }

  /** `(high - low) / previous close`; NaN on the first row. */
  function Amplitude(rows: seq<OverlayRow>, i: nat): Option<real>
    requires PositiveCloses(rows) && i < |rows|
  {
    if i == 0 then None else Some((rows[i].bar.high - rows[i].bar.low) / rows[i - 1].bar.close)
  }

  /** The enhancement return of row `i`: 0 without an attempt; otherwise a win
      when the draw is below the regime's win probability. An attempt on the
      first row multiplies a NaN amplitude and is NaN. */
  function TProfit(rows: seq<OverlayRow>, draws: seq<real>, cost: real, i: nat): Option<real>
    requires Inputs(rows, draws) && i < |rows|
  {
    if !Attempts(rows[i]) then Some(0.0)
    else
      match Amplitude(rows, i)
      case None => None
      case Some(amp) =>
        if draws[i] < WinProbability(rows[i].regime)
        then Some(amp * WinCapture * rows[i].tPos - cost * 2.0)
        else Some(-amp * LossGiveBack * rows[i].tPos - cost * 2.0)
  }

  /** The enhancement is 0 on days without an attempt and NaN only for an
      attempt on the first row; an attempted day lies between the loss and
      the win formula and loses money whenever the draw says loss. */
  lemma TProfitCharacterization(rows: seq<OverlayRow>, draws: seq<real>, cost: real, i: nat)
    requires Inputs(rows, draws) && i < |rows|
    ensures !Attempts(rows[i]) ==> TProfit(rows, draws, cost, i) == Some(0.0)
    ensures TProfit(rows, draws, cost, i).None? <==> Attempts(rows[i]) && i == 0
    ensures WellFormed(rows[i].bar) && cost > 0.0 && Attempts(rows[i]) && i > 0 ==>
              var amp := Amplitude(rows, i).value;
              var t := TProfit(rows, draws, cost, i).value;
              && amp >= 0.0
              && -LossGiveBack * amp * rows[i].tPos - 2.0 * cost <= t <= WinCapture * amp * rows[i].tPos - 2.0 * cost
              && (draws[i] >= WinProbability(rows[i].regime) ==> t < 0.0)
  {
    if WellFormed(rows[i].bar) && cost > 0.0 && Attempts(rows[i]) && i > 0 {
      var bar := rows[i].bar;
      var amp := Amplitude(rows, i).value;
      assert bar.high - bar.low >= 0.0;
      assert amp >= 0.0;
      var x := amp * rows[i].tPos;
      assert x >= 0.0;
      assert amp * WinCapture * rows[i].tPos == WinCapture * x;
      assert -amp * LossGiveBack * rows[i].tPos == -LossGiveBack * x;
    }
  }

  /** `pct_change().fillna(0)`: 0 on the first row. */
  function StockRet(rows: seq<OverlayRow>, i: nat): real
    requires PositiveCloses(rows) && i < |rows|
  {
    if i == 0 then 0.0 else rows[i].bar.close / rows[i - 1].bar.close - 1.0
  }

  function DailyRet(rows: seq<OverlayRow>, draws: seq<real>, cost: real, i: nat): Option<real>
    requires Inputs(rows, draws) && i < |rows|
  {
    match TProfit(rows, draws, cost, i)
    case None => None
    case Some(t) => Some(StockRet(rows, i) + t)
  }

  /** Growth factor of one day in `cumprod`, which skips NaN. */
  function Growth(ret: Option<real>): real {
    match ret
    case None => 1.0
    case Some(x) => 1.0 + x
  }

  /** Product of the growth factors of rows 0 through `i`. */
  function Compounded(rows: seq<OverlayRow>, draws: seq<real>, cost: real, i: nat): real
    requires Inputs(rows, draws) && i < |rows|
  {
    (if i == 0 then 1.0 else Compounded(rows, draws, cost, i - 1)) * Growth(DailyRet(rows, draws, cost, i))
  }

  /** `(1 + strategy_daily_ret).cumprod()`: NaN where the day's return is NaN. */
  function Nav(rows: seq<OverlayRow>, draws: seq<real>, cost: real, i: nat): Option<real>
    requires Inputs(rows, draws) && i < |rows|
  {
    if DailyRet(rows, draws, cost, i).None? then None else Some(Compounded(rows, draws, cost, i))
  }

  /** `close / close[0]`. */
  function BenchmarkNav(rows: seq<OverlayRow>, i: nat): real
    requires PositiveCloses(rows) && i < |rows|
  {
    rows[i].bar.close / rows[0].bar.close
  }

  /** One output row of `run`. */
  datatype OverlayDay = OverlayDay(
    benchmarkNav: real,
    amplitude: Option<real>,
    tProfit: Option<real>,
    stockRet: real,
    dailyRet: Option<real>,
    nav: Option<real>)

  /** `BacktesterV2.run`: one output row per input row. */
  function RunOverlay(rows: seq<OverlayRow>, draws: seq<real>, cost: real): (r: seq<OverlayDay>)
    requires Inputs(rows, draws)
    ensures |r| == |rows|
    ensures forall i :: 0 <= i < |rows| ==> r[i].nav == Nav(rows, draws, cost, i)
    ensures forall i :: 0 <= i < |rows| ==> r[i].tProfit == TProfit(rows, draws, cost, i)
    ensures forall i :: 0 <= i < |rows| ==> r[i].benchmarkNav == BenchmarkNav(rows, i)
  {
    seq(|rows|, i requires 0 <= i < |rows| =>
      OverlayDay(
        BenchmarkNav(rows, i),
        Amplitude(rows, i),
        TProfit(rows, draws, cost, i),
        StockRet(rows, i),
        DailyRet(rows, draws, cost, i),
        Nav(rows, draws, cost, i)))
  }

  /** The `cumprod` recursion over the NAV column: after the first row every
      NAV is defined; it is the previous NAV grown by the day's return, and
      only row 1 can follow a NaN (an attempt on row 0), where the product
      restarts from 1. The benchmark starts at 1. */
  lemma NavStep(rows: seq<OverlayRow>, draws: seq<real>, cost: real, i: nat)
    requires Inputs(rows, draws) && 0 < i < |rows|
    ensures DailyRet(rows, draws, cost, i).Some? && Nav(rows, draws, cost, i).Some?
    ensures Nav(rows, draws, cost, i - 1).Some? ==>
              Nav(rows, draws, cost, i).value
              == Nav(rows, draws, cost, i - 1).value * (1.0 + DailyRet(rows, draws, cost, i).value)
    ensures Nav(rows, draws, cost, i - 1).None? ==>
              i == 1 && Nav(rows, draws, cost, i).value == 1.0 + DailyRet(rows, draws, cost, i).value
    ensures BenchmarkNav(rows, 0) == 1.0
  {
    TProfitCharacterization(rows, draws, cost, i);
    TProfitCharacterization(rows, draws, cost, i - 1);
    if Nav(rows, draws, cost, i - 1).None? {
      assert i - 1 == 0;
      assert Compounded(rows, draws, cost, 0) == 1.0;
    }
    var c0 := rows[0].bar.close;
    assert c0 > 0.0;
    DivSelf(c0);
  }

  lemma DivSelf(x: real)
    requires x > 0.0
    ensures x / x == 1.0
  {
  }

  /** Without any attempted round trip the strategy NAV is the benchmark NAV:
      compounding the stock's own daily returns telescopes to close / close[0]. */
  lemma {:induction false} NoAttemptsTrackBenchmark(rows: seq<OverlayRow>, draws: seq<real>, cost: real, i: nat)
    requires Inputs(rows, draws) && i < |rows|
    requires forall k :: 0 <= k <= i ==> !Attempts(rows[k])
    ensures Nav(rows, draws, cost, i) == Some(BenchmarkNav(rows, i))
  {
    var c := rows[i].bar.close;
    var c0 := rows[0].bar.close;
    assert c0 > 0.0;
    assert TProfit(rows, draws, cost, i) == Some(0.0);
    assert DailyRet(rows, draws, cost, i) == Some(StockRet(rows, i));
    if i == 0 {
      DivSelf(c0);
      assert Compounded(rows, draws, cost, 0) == 1.0;
    } else {
      NoAttemptsTrackBenchmark(rows, draws, cost, i - 1);
      var p := rows[i - 1].bar.close;
      assert p > 0.0;
      assert Compounded(rows, draws, cost, i - 1) == p / c0;
      assert Growth(DailyRet(rows, draws, cost, i)) == c / p;
      assert Compounded(rows, draws, cost, i) == (p / c0) * (c / p);
      assert (p / c0) * (c / p) == c / c0;
    }
  }

  /** The input of `run` as the detect, generate-signals, run pipeline builds
      it: each bar with its regime label, its signal and its suggested position. */
  function PipelineRows(bars: seq<Bar>, index: seq<real>, window: nat, sd: seq<real> -> real, config: Config)
    : (r: seq<OverlayRow>)
    requires |index| == |bars|
    ensures |r| == |bars|
    ensures forall i :: 0 <= i < |bars| ==>
              && r[i].bar == bars[i]
              && r[i].regime == RegimeAt(bars, index, window, sd, i)
              && r[i].signal == SignalAt(bars, Labels(bars, index, window, sd), sd, i)
              && r[i].tPos == SuggestedPosition(RegimeAt(bars, index, window, sd, i), config)
  {
    var regimes := Labels(bars, index, window, sd);
    var signals := GenerateSignals(bars, regimes, sd, config);
    seq(|bars|, i requires 0 <= i < |bars| => OverlayRow(bars[i], regimes[i], signals[i].signal, signals[i].suggestedPos))
  }

  /** In the pipeline no round trip is attempted before the 20-bar bands
      exist, so the first row never yields a NaN enhancement and the strategy
      NAV equals the benchmark NAV through the 19th bar. */
  lemma PipelineWarmUpTracksBenchmark(
    bars: seq<Bar>, index: seq<real>, window: nat, sd: seq<real> -> real, config: Config,
    draws: seq<real>, cost: real, i: nat)
    requires |index| == |bars|
    requires Inputs(PipelineRows(bars, index, window, sd, config), draws)
    requires i < |bars| && i + 1 < BandWindow
    ensures var rows := PipelineRows(bars, index, window, sd, config);
            && TProfit(rows, draws, cost, i) == Some(0.0)
            && Nav(rows, draws, cost, i) == Some(BenchmarkNav(rows, i))
  {
    var rows := PipelineRows(bars, index, window, sd, config);
    var regimes := Labels(bars, index, window, sd);
    assert forall k :: 0 <= k <= i ==> rows[k].signal == SignalAt(bars, regimes, sd, k) == Hold;
    NoAttemptsTrackBenchmark(rows, draws, cost, i);
  }

  /** The largest NAV defined in rows 0 through `i`, NaN when none is. */
  function PeakSoFar(navs: seq<Option<real>>, i: nat): (r: Option<real>)
    requires i < |navs|
    ensures r.Some? <==> exists k :: 0 <= k <= i && navs[k].Some?
    ensures r.Some? ==> forall k :: 0 <= k <= i && navs[k].Some? ==> navs[k].value <= r.value
    ensures r.Some? ==> exists k :: 0 <= k <= i && navs[k] == r
  {
    var before := if i == 0 then None else PeakSoFar(navs, i - 1);
    match navs[i]
    case None => before
    case Some(v) => if before.Some? && before.value > v then before else Some(v)
  }

  /** `cummax` of the NAV column at row `i`: NaN where the NAV is NaN (pandas
      keeps NaN in place), otherwise the largest NAV defined so far. */
  function RunningMax(navs: seq<Option<real>>, i: nat): (r: Option<real>)
    requires i < |navs|
    ensures r.Some? <==> navs[i].Some?
    ensures r.Some? ==> forall k :: 0 <= k <= i && navs[k].Some? ==> navs[k].value <= r.value
    ensures r.Some? ==> exists k :: 0 <= k <= i && navs[k] == r
  {
    if navs[i].None? then None else PeakSoFar(navs, i)
  }

  /** `(nav - cummax) / cummax` at row `i`; a zero running maximum gives a
      non-finite float, modelled as NaN. */
  function Drawdown(navs: seq<Option<real>>, i: nat): Option<real>
    requires i < |navs|
  {
    match navs[i]
    case None => None
    case Some(v) =>
      var peak := RunningMax(navs, i).value;
      if peak == 0.0 then None else Some((v - peak) / peak)
  }

  predicate PositiveNavs(navs: seq<Option<real>>) {
    forall k :: 0 <= k < |navs| && navs[k].Some? ==> navs[k].value > 0.0
  }

  /** With positive NAVs a drawdown is defined wherever the NAV is, and lies
      in (-1, 0]: 0 at a new high, the fraction lost from the peak otherwise. */
  lemma DrawdownRange(navs: seq<Option<real>>, i: nat)
    requires i < |navs| && PositiveNavs(navs)
    ensures Drawdown(navs, i).Some? <==> navs[i].Some?
    ensures Drawdown(navs, i).Some? ==> -1.0 < Drawdown(navs, i).value <= 0.0
    ensures Drawdown(navs, i).Some? ==>
              (Drawdown(navs, i).value == 0.0 <==> navs[i].value == RunningMax(navs, i).value)
  {
    if navs[i].Some? {
      var rm := RunningMax(navs, i);
      var k :| 0 <= k <= i && navs[k] == rm;
      RelativeDrop(navs[i].value, rm.value);
    }
  }

  /** A value `v` at or below a positive peak is a drop of less than 100%. */
  lemma RelativeDrop(v: real, peak: real)
    requires 0.0 < v <= peak
    ensures -1.0 < (v - peak) / peak <= 0.0
    ensures (v - peak) / peak == 0.0 <==> v == peak
  {
    var d := (v - peak) / peak;
    assert d * peak == v - peak;
    assert d > 0.0 ==> d * peak > 0.0;
    assert d <= -1.0 ==> d * peak <= -peak;
    assert v == peak ==> d * peak == 0.0;
  }

  function Drawdowns(navs: seq<Option<real>>): (r: seq<Option<real>>)
    ensures |r| == |navs|
    ensures forall i :: 0 <= i < |navs| ==> r[i] == Drawdown(navs, i)
  {
    seq(|navs|, i requires 0 <= i < |navs| => Drawdown(navs, i))
  }

  /** `drawdown.min()`. */
  function MaxDrawdown(navs: seq<Option<real>>): Option<real> {
    MinDefined(Drawdowns(navs))
  }

  /** With positive NAVs the maximum drawdown exists as soon as one NAV does,
      lies in (-1, 0], and is attained on some row. */
  lemma MaxDrawdownRange(navs: seq<Option<real>>)
    requires PositiveNavs(navs)
    ensures MaxDrawdown(navs).Some? <==> exists k :: 0 <= k < |navs| && navs[k].Some?
    ensures MaxDrawdown(navs).Some? ==>
              && -1.0 < MaxDrawdown(navs).value <= 0.0
              && exists k :: 0 <= k < |navs| && Drawdown(navs, k) == MaxDrawdown(navs)
  {
    var ds := Drawdowns(navs);
    forall k | 0 <= k < |navs|
      ensures ds[k].Some? <==> navs[k].Some?
      ensures ds[k].Some? ==> -1.0 < ds[k].value <= 0.0
    {
      DrawdownRange(navs, k);
    }
    var m := MaxDrawdown(navs);
    if m.Some? {
      var k :| 0 <= k < |ds| && ds[k] == m;
    }
  }

  /** The maximum drawdown is the least defined drawdown, and on positive NAVs
      it exists exactly when some NAV does and lies in (-1, 0]. */
  lemma MaxDrawdownFacts(navs: seq<Option<real>>)
    ensures MaxDrawdown(navs).Some? ==>
              forall k :: 0 <= k < |navs| && Drawdown(navs, k).Some? ==> MaxDrawdown(navs).value <= Drawdown(navs, k).value
    ensures PositiveNavs(navs) ==>
              && (MaxDrawdown(navs).Some? <==> exists k :: 0 <= k < |navs| && navs[k].Some?)
              && (MaxDrawdown(navs).Some? ==> -1.0 < MaxDrawdown(navs).value <= 0.0)
  {
    if PositiveNavs(navs) {
      MaxDrawdownRange(navs);
    }
  }

  function Navs(days: seq<OverlayDay>): (r: seq<Option<real>>)
    ensures |r| == |days|
    ensures forall i :: 0 <= i < |days| ==> r[i] == days[i].nav
  {
    seq(|days|, i requires 0 <= i < |days| => days[i].nav)
  }

  function TProfits(days: seq<OverlayDay>): (r: seq<Option<real>>)
    ensures |r| == |days|
    ensures forall i :: 0 <= i < |days| ==> r[i] == days[i].tProfit
  {
    seq(|days|, i requires 0 <= i < |days| => days[i].tProfit)
  }

  /** Rows with `t_profit != 0`; a NaN enhancement compares unequal to 0 and counts. */
  function TradeCount(days: seq<OverlayDay>): nat {
    Count(TProfits(days), (t: Option<real>) => t != Some(0.0))
  }

  /** Rows with `t_profit > 0`. */
  function WinCount(days: seq<OverlayDay>): nat {
    Count(TProfits(days), (t: Option<real>) => t.Some? && t.value > 0.0)
  }

  /** Winning rows over traded rows, 0 without trades. */
  function OverlayWinRate(days: seq<OverlayDay>): (r: real)
    ensures 0.0 <= r <= 1.0
    ensures TradeCount(days) == 0 ==> r == 0.0
    ensures TradeCount(days) > 0 ==> r * (TradeCount(days) as real) == WinCount(days) as real
  {
    CountMonotone(TProfits(days), (t: Option<real>) => t.Some? && t.value > 0.0, (t: Option<real>) => t != Some(0.0));
    Ratio(WinCount(days), TradeCount(days))
  }

  /** The metrics of `calculate_metrics` that the model keeps. */
  datatype Metrics = Metrics(
    totalReturn: Option<real>,
    benchmarkReturn: real,
    maxDrawdown: Option<real>,
    winRate: real,
    trades: nat)

  /** The `max_drawdown` of a run: the least defined drawdown of its NAVs. */
  function RunMaxDrawdown(days: seq<OverlayDay>): (r: Option<real>)
    ensures PositiveNavs(Navs(days)) ==>
              && (r.Some? <==> exists k :: 0 <= k < |days| && days[k].nav.Some?)
              && (r.Some? ==> -1.0 < r.value <= 0.0)
    ensures r.Some? ==>
              forall k :: 0 <= k < |days| && Drawdown(Navs(days), k).Some? ==> r.value <= Drawdown(Navs(days), k).value
  {
    var navs := Navs(days);
    MaxDrawdownFacts(navs);
    assert (exists k :: 0 <= k < |days| && days[k].nav.Some?) <==> (exists k :: 0 <= k < |navs| && navs[k].Some?);
    MaxDrawdown(navs)
  }

  function CalculateMetrics(days: seq<OverlayDay>): (r: Metrics)
    requires |days| > 0
    ensures r.totalReturn.Some? <==> days[|days| - 1].nav.Some?
    ensures r.totalReturn.Some? ==> r.totalReturn.value + 1.0 == days[|days| - 1].nav.value
    ensures r.benchmarkReturn + 1.0 == days[|days| - 1].benchmarkNav
    ensures PositiveNavs(Navs(days)) ==>
              && (r.maxDrawdown.Some? <==> exists k :: 0 <= k < |days| && days[k].nav.Some?)
              && (r.maxDrawdown.Some? ==> -1.0 < r.maxDrawdown.value <= 0.0)
    ensures r.maxDrawdown.Some? ==>
              forall k :: 0 <= k < |days| && Drawdown(Navs(days), k).Some? ==>
                r.maxDrawdown.value <= Drawdown(Navs(days), k).value
    ensures r.trades == TradeCount(days) && r.trades <= |days|
    ensures 0.0 <= r.winRate <= 1.0
    ensures r.trades == 0 ==> r.winRate == 0.0
    ensures r.trades > 0 ==> r.winRate * (r.trades as real) == WinCount(days) as real
  {
    var last := days[|days| - 1];
    Metrics(
      if last.nav.Some? then Some(last.nav.value - 1.0) else None,
      last.benchmarkNav - 1.0,
      RunMaxDrawdown(days),
      OverlayWinRate(days),
      TradeCount(days))
  }
}

=== FILE: predictor.dfy ===
/** The multi-timeframe predictor: a 5-versus-20 moving-average trend on the
    monthly, weekly and daily series, a 14-period average true range on the
    daily series, a buy/sell band of a quarter ATR around the last close, and
    a "resonance" rule that acts only when all three trends agree. */
module MultiPeriodPredictor {
  import opened Frame
  import opened Market

  datatype Trend = Up | Down | Flat

  /** The actions a prediction can carry; `RangeT` is accepted by the
      round-trip simulator although the predictor never emits it. */
  datatype Action = BuyFirst | SellFirst | RangeT | Wait

  /** A full prediction record, as `predict_next_day` returns it. */
  datatype Forecast = Forecast(
    date: int,
    trendM: Trend,
    trendW: Trend,
    trendD: Trend,
    action: Action,
    buyPrice: Option<real>,
    sellPrice: Option<real>)

  /** What the driver stores per day: the bare `{'action': 'Wait'}` record
      while history is short, a full forecast otherwise. */
  datatype Prediction = Placeholder | Predicted(forecast: Forecast)

  const FastWindow: nat := 5
  const SlowWindow: nat := 20
  const AtrWindow: nat := 14
  /** Distance of the buy and sell prices from the last close, in ATRs. */
  const BandFactor: real := 0.25

  /** `analyze_trend`: Up when the last 5-period mean of the closes is above
      the last 20-period mean, Down when below, Flat otherwise (including
      whenever either mean is undefined). */
  function TrendOf(bars: seq<Bar>): Trend
    requires |bars| > 0
  {
    var last := |bars| - 1;
    var fast := RollingMean(Lift(Closes(bars)), FastWindow, last);
    var slow := RollingMean(Lift(Closes(bars)), SlowWindow, last);
    if Gt(fast, slow) then Up
    else if Lt(fast, slow) then Down
    else Flat
  }

  /** The trend compares plain means of the last 5 and last 20 closes, and
      is Flat whenever fewer than 20 bars exist. */
  lemma TrendCharacterization(bars: seq<Bar>)
    requires |bars| > 0
    ensures |bars| < SlowWindow ==> TrendOf(bars) == Flat
    ensures TrendOf(bars) == Up <==>
              |bars| >= SlowWindow && Mean(Closes(bars)[|bars| - FastWindow..]) > Mean(Closes(bars)[|bars| - SlowWindow..])
    ensures TrendOf(bars) == Down <==>
              |bars| >= SlowWindow && Mean(Closes(bars)[|bars| - FastWindow..]) < Mean(Closes(bars)[|bars| - SlowWindow..])
  {
    var cs := Closes(bars);
    var last := |bars| - 1;
    RollingMeanOfSeries(cs, FastWindow, last);
    RollingMeanOfSeries(cs, SlowWindow, last);
    if |bars| >= SlowWindow {
      assert cs[last + 1 - FastWindow..last + 1] == cs[|bars| - FastWindow..];
      assert cs[last + 1 - SlowWindow..last + 1] == cs[|bars| - SlowWindow..];
    }
  }

  /** True range of bar `i`: the largest of the day's range and the two gaps
      to the prior close. On the first bar the gaps are NaN and are skipped,
      leaving the day's range. */
  function TrueRange(bars: seq<Bar>, i: nat): (r: real)
    requires i < |bars|
    ensures r >= bars[i].high - bars[i].low
    ensures i == 0 ==> r == bars[i].high - bars[i].low
    ensures i > 0 ==> r >= Abs(bars[i].high - bars[i - 1].close) && r >= Abs(bars[i].low - bars[i - 1].close)
    ensures i > 0 ==>
              || r == bars[i].high - bars[i].low
              || r == Abs(bars[i].high - bars[i - 1].close)
              || r == Abs(bars[i].low - bars[i - 1].close)
  {
    var hl := bars[i].high - bars[i].low;
    if i == 0 then hl
    else
      var prior := bars[i - 1].close;
      Max(hl, Max(Abs(bars[i].high - prior), Abs(bars[i].low - prior)))
  }

  function TrueRanges(bars: seq<Bar>): (r: seq<real>)
    ensures |r| == |bars|
    ensures forall i :: 0 <= i < |bars| ==> r[i] == TrueRange(bars, i)
  {
    seq(|bars|, i requires 0 <= i < |bars| => TrueRange(bars, i))
  }

  /** `get_volatility_range`: the 14-period mean of the true range at the
      last bar (NaN below 14 bars). */
  function Atr(bars: seq<Bar>): Option<real>
    requires |bars| > 0
  {
    RollingMean(Lift(TrueRanges(bars)), AtrWindow, |bars| - 1)
  }

  /** The ATR exists exactly from 14 bars on and is then the mean of the last
      14 true ranges; on bars whose high is not below their low it is
      non-negative. */
  lemma AtrCharacterization(bars: seq<Bar>)
    requires |bars| > 0
    ensures Atr(bars).Some? <==> |bars| >= AtrWindow
    ensures Atr(bars).Some? ==> Atr(bars).value == Mean(TrueRanges(bars)[|bars| - AtrWindow..])
    ensures (forall k :: 0 <= k < |bars| ==> bars[k].low <= bars[k].high) && Atr(bars).Some? ==> Atr(bars).value >= 0.0
  {
    var trs := TrueRanges(bars);
    RollingMeanOfSeries(trs, AtrWindow, |bars| - 1);
    if |bars| >= AtrWindow {
      var win := trs[|bars| - AtrWindow..];
      assert trs[|bars| - 1 + 1 - AtrWindow..|bars| - 1 + 1] == win;
      if forall k :: 0 <= k < |bars| ==> bars[k].low <= bars[k].high {
        assert forall k :: 0 <= k < |win| ==> win[k] == TrueRange(bars, |bars| - AtrWindow + k);
        MeanLowerBound(win, 0.0);
      }
    }
  }

  /** The resonance rule: act only when all three trends agree and are not
      Flat, buying first on a common Up and selling first on a common Down. */
  function Resonance(m: Trend, w: Trend, d: Trend): (r: Action)
    ensures r == BuyFirst <==> m == Up && w == Up && d == Up
    ensures r == SellFirst <==> m == Down && w == Down && d == Down
    ensures r == Wait <==> !(m == w == d) || m == Flat
    ensures r != RangeT
  {
    if m == w == d && m != Flat then
      if m == Up then BuyFirst
      else assert m.Down?; SellFirst
    else Wait
  }

  /** `predict_next_day`: the three trends, the action, and the band around
      the last daily close; the band is reported whatever the action. */
  function PredictNextDay(daily: seq<Bar>, weekly: seq<Bar>, monthly: seq<Bar>): (r: Forecast)
    requires |daily| > 0 && |weekly| > 0 && |monthly| > 0
    ensures r.date == daily[|daily| - 1].date
    ensures r.trendM == TrendOf(monthly) && r.trendW == TrendOf(weekly) && r.trendD == TrendOf(daily)
    ensures r.action == Resonance(r.trendM, r.trendW, r.trendD)
    ensures r.buyPrice.Some? <==> Atr(daily).Some?
    ensures r.sellPrice.Some? <==> Atr(daily).Some?
    ensures Atr(daily).Some? ==>
              && r.buyPrice.value + BandFactor * Atr(daily).value == daily[|daily| - 1].close
              && r.sellPrice.value - BandFactor * Atr(daily).value == daily[|daily| - 1].close
  {
    var m := TrendOf(monthly);
    var w := TrendOf(weekly);
    var d := TrendOf(daily);
    var atr := Atr(daily);
    var lastClose := daily[|daily| - 1].close;
    var buy := if atr.Some? then Some(lastClose - BandFactor * atr.value) else None;
    var sell := if atr.Some? then Some(lastClose + BandFactor * atr.value) else None;
    Forecast(daily[|daily| - 1].date, m, w, d, Resonance(m, w, d), buy, sell)
  }

  /** On well-formed daily bars the band brackets the last close and is half
      an ATR wide. */
  lemma BandBracketsClose(daily: seq<Bar>, weekly: seq<Bar>, monthly: seq<Bar>)
    requires |daily| > 0 && |weekly| > 0 && |monthly| > 0
    requires forall k :: 0 <= k < |daily| ==> daily[k].low <= daily[k].high
    requires |daily| >= AtrWindow
    ensures var f := PredictNextDay(daily, weekly, monthly);
            && f.buyPrice.Some? && f.sellPrice.Some?
            && f.buyPrice.value <= daily[|daily| - 1].close <= f.sellPrice.value
            && f.sellPrice.value - f.buyPrice.value == 0.5 * Atr(daily).value
  {
    AtrCharacterization(daily);
  }
}

=== FILE: regime.dfy ===
/** The market-regime classifier: every bar gets exactly one of four labels,
    chosen by three rules over rolling features evaluated in a fixed order,
    the first rule that holds winning, `LowLiquidity` when none does. */
module RegimeDetector {
  import opened Frame
  import opened Market

  datatype Regime = RiskOn | Volatile | RiskOff | LowLiquidity

  /** Window of the volatility baseline, fixed in the detector. */
  const BaselineWindow: nat := 60

  /** numpy's `select`: the choice of the first rule whose condition holds,
      `default` when none does. */
  function Select<T>(rules: seq<(bool, T)>, default: T): (r: T)
    ensures (forall k :: 0 <= k < |rules| ==> !rules[k].0) ==> r == default
    ensures forall k :: 0 <= k < |rules| && rules[k].0 && (forall j :: 0 <= j < k ==> !rules[j].0) ==> r == rules[k].1
  {
    if |rules| == 0 then default
    else if rules[0].0 then rules[0].1
    else
      assert forall k :: 1 <= k < |rules| ==> rules[k] == rules[1..][k - 1];
      Select(rules[1..], default)
  }

  /** `close.pct_change()`: NaN on the first bar. A zero prior close, which
      pandas turns into an infinite change, is taken as NaN as well. */
  function Returns(bars: seq<Bar>): (r: seq<Option<real>>)
    ensures |r| == |bars|
    ensures |bars| > 0 ==> r[0] == None
    ensures forall i :: 1 <= i < |bars| && bars[i - 1].close != 0.0 ==> r[i] == Some(bars[i].close / bars[i - 1].close - 1.0)
  {
    seq(|bars|, i requires 0 <= i < |bars| =>
      if i == 0 || bars[i - 1].close == 0.0 then None
      else Some(bars[i].close / bars[i - 1].close - 1.0))
  }

  function MaIndex(index: seq<real>, window: nat, i: nat): Option<real>
    requires i < |index|
  {
    RollingMean(Lift(index), window, i)
  }

  function MaStock(bars: seq<Bar>, window: nat, i: nat): Option<real>
    requires i < |bars|
  {
    RollingMean(Lift(Closes(bars)), window, i)
  }

  function VolMa(bars: seq<Bar>, window: nat, i: nat): Option<real>
    requires i < |bars|
  {
    RollingMean(Lift(Volumes(bars)), window, i)
  }

  /** Rolling sample std of daily returns. */
  function Volatility(bars: seq<Bar>, window: nat, sd: seq<real> -> real, i: nat): Option<real>
    requires i < |bars|
  {
    RollingStd(Returns(bars), window, i, sd)
  }

  function VolatilitySeries(bars: seq<Bar>, window: nat, sd: seq<real> -> real): (r: seq<Option<real>>)
    ensures |r| == |bars|
    ensures forall i :: 0 <= i < |bars| ==> r[i] == Volatility(bars, window, sd, i)
  {
    seq(|bars|, i requires 0 <= i < |bars| => Volatility(bars, window, sd, i))
  }

  /** 60-bar rolling mean of the volatility column. */
  function VolatilityBaseline(bars: seq<Bar>, window: nat, sd: seq<real> -> real, i: nat): Option<real>
    requires i < |bars|
  {
    RollingMean(VolatilitySeries(bars, window, sd), BaselineWindow, i)
  }

  /** `index_close.diff().abs()`: NaN on the first bar. */
  function IndexMove(index: seq<real>, i: nat): Option<real>
    requires i < |index|
  {
    if i == 0 then None else Some(Abs(index[i] - index[i - 1]))
  }

  /** Whole-series sample std of the index close (NaN below two points). */
  function IndexStd(index: seq<real>, sd: seq<real> -> real): Option<real> {
    if |index| >= 2 then Some(sd(index)) else None
  }

  /** The values the three rules read on one bar: the index close and its
      moving average, the volume and its moving average, the volatility and
      its 60-bar baseline, the index move and the whole-series index std. */
  datatype Features = Features(
    indexClose: real,
    maIndex: Option<real>,
    volume: real,
    volMa: Option<real>,
    volatility: Option<real>,
    baseline: Option<real>,
    indexMove: Option<real>,
    indexStd: Option<real>)

  function FeaturesAt(bars: seq<Bar>, index: seq<real>, window: nat, sd: seq<real> -> real, i: nat): Features
    requires |index| == |bars| && i < |bars|
  {
    Features(
      index[i], MaIndex(index, window, i),
      bars[i].volume, VolMa(bars, window, i),
      Volatility(bars, window, sd, i), VolatilityBaseline(bars, window, sd, i),
      IndexMove(index, i), IndexStd(index, sd))
  }

  /** Index above its moving average on above-average volume. */
  predicate RiskOnRule(f: Features) {
    Gt(Some(f.indexClose), f.maIndex) && Gt(Some(f.volume), f.volMa)
  }

  /** Volatility above its baseline while the index moves less than its std. */
  predicate VolatileRule(f: Features) {
    Gt(f.volatility, f.baseline) && Lt(f.indexMove, f.indexStd)
  }

  /** Index below its moving average. */
  predicate RiskOffRule(f: Features) {
    Lt(Some(f.indexClose), f.maIndex)
  }

  /** The label of one bar: the rules in priority order, first match wins. */
  function Classify(f: Features): (r: Regime)
    ensures r == RiskOn <==> RiskOnRule(f)
    ensures r == Volatile <==> !RiskOnRule(f) && VolatileRule(f)
    ensures r == RiskOff <==> !RiskOnRule(f) && !VolatileRule(f) && RiskOffRule(f)
    ensures r == LowLiquidity <==> !RiskOnRule(f) && !VolatileRule(f) && !RiskOffRule(f)
  {
    var rules := [(RiskOnRule(f), RiskOn), (VolatileRule(f), Volatile), (RiskOffRule(f), RiskOff)];
    assert rules[0].1 == RiskOn && rules[1].1 == Volatile && rules[2].1 == RiskOff;
    Select(rules, LowLiquidity)
  }

  /** The label of bar `i`. */
  function RegimeAt(bars: seq<Bar>, index: seq<real>, window: nat, sd: seq<real> -> real, i: nat): Regime
    requires |index| == |bars| && i < |bars|
  {
    Classify(FeaturesAt(bars, index, window, sd, i))
  }

  /** One output row of `detect`: the feature columns it adds and the label. */
  datatype RegimeRow = RegimeRow(
    maIndex: Option<real>,
    maStock: Option<real>,
    volatility: Option<real>,
    volMa: Option<real>,
    regime: Regime)

  /** `RegimeDetector.detect`: one row per bar, in order, each labelled from
      that bar's features. */
  function Detect(bars: seq<Bar>, index: seq<real>, window: nat, sd: seq<real> -> real): (r: seq<RegimeRow>)
    requires |index| == |bars|
    ensures |r| == |bars|
    ensures forall i :: 0 <= i < |r| ==> r[i].regime == Classify(FeaturesAt(bars, index, window, sd, i))
    ensures forall i :: 0 <= i < |r| ==> r[i].maIndex == FeaturesAt(bars, index, window, sd, i).maIndex
    ensures forall i :: 0 <= i < |r| ==> r[i].volMa == FeaturesAt(bars, index, window, sd, i).volMa
    ensures forall i :: 0 <= i < |r| ==> r[i].volatility == FeaturesAt(bars, index, window, sd, i).volatility
  {
    seq(|bars|, i requires 0 <= i < |bars| =>
      RegimeRow(
        MaIndex(index, window, i),
        MaStock(bars, window, i),
        Volatility(bars, window, sd, i),
        VolMa(bars, window, i),
        RegimeAt(bars, index, window, sd, i)))
  }

  /** The `regime` column alone. */
  function Labels(bars: seq<Bar>, index: seq<real>, window: nat, sd: seq<real> -> real): (r: seq<Regime>)
    requires |index| == |bars|
    ensures |r| == |bars|
    ensures forall i :: 0 <= i < |bars| ==> r[i] == Classify(FeaturesAt(bars, index, window, sd, i))
  {
    seq(|bars|, i requires 0 <= i < |bars| => RegimeAt(bars, index, window, sd, i))
  }

  /** The index cannot be both above and below its moving average, so the
      Risk-On and Risk-Off rules never hold together, and Risk-Off is simply
      "below the average and not Volatile". */
  lemma RiskOnExcludesRiskOff(f: Features)
    ensures !(RiskOnRule(f) && RiskOffRule(f))
    ensures Classify(f) == RiskOff <==> !VolatileRule(f) && RiskOffRule(f)
  {
  }

  /** The moving averages are plain means over the last `window` values. */
  lemma MovingAveragesAreWindowMeans(bars: seq<Bar>, index: seq<real>, window: nat, i: nat)
    requires |index| == |bars| && i < |bars|
    requires 1 <= window <= i + 1
    ensures MaIndex(index, window, i) == Some(Mean(index[i + 1 - window..i + 1]))
    ensures VolMa(bars, window, i) == Some(Mean(Volumes(bars)[i + 1 - window..i + 1]))
  {
    RollingMeanOfSeries(index, window, i);
    RollingMeanOfSeries(Volumes(bars), window, i);
  }

  /** Volatility needs `window` returns and the first bar has none, so it is
      undefined on the first `window` bars. */
  lemma {:induction false} VolatilityUndefinedEarly(bars: seq<Bar>, window: nat, sd: seq<real> -> real, i: nat)
    requires i < |bars| && i < window
    ensures Volatility(bars, window, sd, i) == None
  {
    if 2 <= window <= i + 1 {
      assert Returns(bars)[i + 1 - window..i + 1][0] == Returns(bars)[0];
    }
  }

  /** A defined baseline at bar `i` rests on a defined volatility at the
      start of its 60-bar window. */
  lemma BaselineNeedsHistory(bars: seq<Bar>, window: nat, sd: seq<real> -> real, i: nat) returns (first: nat)
    requires i < |bars| && VolatilityBaseline(bars, window, sd, i).Some?
    ensures first + BaselineWindow == i + 1
    ensures Volatility(bars, window, sd, first).Some?
  {
    var series := VolatilitySeries(bars, window, sd);
    first := i + 1 - BaselineWindow;
    assert AllSome(series[first..i + 1]);
    assert series[first..i + 1][0] == series[first];
  }

  /** The contrapositive: a defined volatility means a window of at least two
      returns, all of them after the first bar. */
  lemma VolatilityDefinedLate(bars: seq<Bar>, window: nat, sd: seq<real> -> real, i: nat)
    requires i < |bars| && Volatility(bars, window, sd, i).Some?
    ensures 2 <= window <= i
  {
    if i < window {
      VolatilityUndefinedEarly(bars, window, sd, i);
    }
  }

  /** The Volatile label needs a full 60-bar baseline of defined volatilities,
      and volatility itself is undefined on the first `window` bars, so the
      Volatile rule cannot hold before bar `window + 59`. */
  lemma VolatileNeedsBaseline(bars: seq<Bar>, index: seq<real>, window: nat, sd: seq<real> -> real, i: nat)
    requires |index| == |bars| && i < |bars|
    requires VolatileRule(FeaturesAt(bars, index, window, sd, i))
    ensures 2 <= window && window + BaselineWindow <= i + 1
  {
    var f := FeaturesAt(bars, index, window, sd, i);
    assert f.baseline == VolatilityBaseline(bars, window, sd, i) && f.baseline.Some?;
    var first := BaselineNeedsHistory(bars, window, sd, i);
    VolatilityDefinedLate(bars, window, sd, first);
  }

  /** Before the index moving average exists (the first `window - 1` bars)
      every rule is false and the label falls through to LowLiquidity. */
  lemma {:induction false} WarmUpIsLowLiquidity(bars: seq<Bar>, index: seq<real>, window: nat, sd: seq<real> -> real, i: nat)
    requires |index| == |bars| && i < |bars|
    requires i + 1 < window
    ensures RegimeAt(bars, index, window, sd, i) == LowLiquidity
  {
    VolatilityUndefinedEarly(bars, window, sd, i);
  }

  /** The first bar is LowLiquidity whatever the window: its index change is
      undefined, and its index close equals any moving average through it. */
  lemma {:induction false} FirstBarIsLowLiquidity(bars: seq<Bar>, index: seq<real>, window: nat, sd: seq<real> -> real)
    requires |index| == |bars| && 0 < |bars|
    ensures RegimeAt(bars, index, window, sd, 0) == LowLiquidity
  {
    RollingMeanOfSeries(index, window, 0);
    if window == 1 {
      assert index[0..1] == [index[0]];
      assert Sum([index[0]]) == index[0] + Sum([]);
    }
  }
}

=== FILE: signals.dfy ===
/** The band signal generator of the holding enhancer: Bollinger-style bands
    of the close, a regime-gated sell rule, an unconditional buy rule applied
    after it, and a regime to position-fraction table. */
module MaotaiTStrategy {
  import opened Frame
  import opened Market
  import opened RegimeDetector

  datatype Signal = Sell | Hold | Buy

  /** Position fraction used for round trips in each named regime. */
  datatype Config = Config(riskOnRatio: real, volatileRatio: real, riskOffRatio: real)

  const DefaultConfig: Config := Config(0.2, 0.5, 0.8)

  /** Every configured ratio is a fraction of the position. */
  predicate FractionConfig(config: Config) {
    && 0.0 <= config.riskOnRatio <= 1.0
    && 0.0 <= config.volatileRatio <= 1.0
    && 0.0 <= config.riskOffRatio <= 1.0
  }
  const BandWindow: nat := 20
  /** Band half-width in standard deviations. */
  const BandWidth: real := 2.0

  function Ma(bars: seq<Bar>, i: nat): Option<real>
    requires i < |bars|
  {
    RollingMean(Lift(Closes(bars)), BandWindow, i)
  }

  function Std(bars: seq<Bar>, sd: seq<real> -> real, i: nat): Option<real>
    requires i < |bars|
  {
    RollingStd(Lift(Closes(bars)), BandWindow, i, sd)
  }

  function Upper(bars: seq<Bar>, sd: seq<real> -> real, i: nat): Option<real>
    requires i < |bars|
  {
    var ma := Ma(bars, i);
    var std := Std(bars, sd, i);
    if ma.Some? && std.Some? then Some(ma.value + BandWidth * std.value) else None
  }

  function Lower(bars: seq<Bar>, sd: seq<real> -> real, i: nat): Option<real>
    requires i < |bars|
  {
    var ma := Ma(bars, i);
    var std := Std(bars, sd, i);
    if ma.Some? && std.Some? then Some(ma.value - BandWidth * std.value) else None
  }

  /** Close above the upper band in a Volatile or Risk-Off regime. */
  predicate SellRule(bars: seq<Bar>, regimes: seq<Regime>, sd: seq<real> -> real, i: nat)
    requires |regimes| == |bars| && i < |bars|
  {
    Gt(Some(bars[i].close), Upper(bars, sd, i)) && regimes[i] in {Volatile, RiskOff}
  }

  /** Close below the lower band, in any regime. */
  predicate BuyRule(bars: seq<Bar>, sd: seq<real> -> real, i: nat)
    requires i < |bars|
  {
    Lt(Some(bars[i].close), Lower(bars, sd, i))
  }

  /** The signal of bar `i`: Hold by default, Sell where the sell rule holds,
      then Buy written over it where the buy rule holds. Before the bands exist
      both rules are false, and the calm regimes never sell. */
  function SignalAt(bars: seq<Bar>, regimes: seq<Regime>, sd: seq<real> -> real, i: nat): (r: Signal)
    requires |regimes| == |bars| && i < |bars|
    ensures r == Buy <==> BuyRule(bars, sd, i)
    ensures r == Sell <==> SellRule(bars, regimes, sd, i) && !BuyRule(bars, sd, i)
    ensures r == Hold <==> !SellRule(bars, regimes, sd, i) && !BuyRule(bars, sd, i)
    ensures i + 1 < BandWindow ==> r == Hold
    ensures regimes[i] == RiskOn || regimes[i] == LowLiquidity ==> r != Sell
  {
    var afterSell := if SellRule(bars, regimes, sd, i) then Sell else Hold;
    if BuyRule(bars, sd, i) then Buy else afterSell
  }

  /** `suggested_t_pos`: the configured fraction of the three named regimes,
      0 for any other. */
  function SuggestedPosition(regime: Regime, config: Config): (r: real)
    ensures regime == LowLiquidity ==> r == 0.0
    ensures FractionConfig(config) ==> 0.0 <= r <= 1.0
  {
    match regime
    case RiskOn => config.riskOnRatio
    case Volatile => config.volatileRatio
    case RiskOff => config.riskOffRatio
    case LowLiquidity => 0.0
  }

  /** One output row of `generate_signals`. */
  datatype SignalRow = SignalRow(
    ma: Option<real>,
    std: Option<real>,
    upper: Option<real>,
    lower: Option<real>,
    signal: Signal,
    suggestedPos: real)

  /** `MaotaiTStrategy.generate_signals`: one row per bar, in order. */
  function GenerateSignals(bars: seq<Bar>, regimes: seq<Regime>, sd: seq<real> -> real, config: Config): (r: seq<SignalRow>)
    requires |regimes| == |bars|
    ensures |r| == |bars|
    ensures forall i :: 0 <= i < |r| ==> r[i].signal == SignalAt(bars, regimes, sd, i)
    ensures forall i :: 0 <= i < |r| ==> r[i].suggestedPos == SuggestedPosition(regimes[i], config)
  {
    seq(|bars|, i requires 0 <= i < |bars| =>
      SignalRow(
        Ma(bars, i),
        Std(bars, sd, i),
        Upper(bars, sd, i),
        Lower(bars, sd, i),
        SignalAt(bars, regimes, sd, i),
        SuggestedPosition(regimes[i], config)))
  }

  ghost predicate NonNegativeStd(sd: seq<real> -> real) {
    forall w: seq<real> :: sd(w) >= 0.0
  }

  /** The bands exist exactly from the 20th bar on, are centred on the
      20-bar mean, and the upper band is never below the lower one. */
  lemma BandsOrdered(bars: seq<Bar>, sd: seq<real> -> real, i: nat)
    requires i < |bars| && NonNegativeStd(sd)
    ensures Upper(bars, sd, i).Some? <==> i + 1 >= BandWindow
    ensures Lower(bars, sd, i).Some? <==> i + 1 >= BandWindow
    ensures i + 1 >= BandWindow ==>
              && Lower(bars, sd, i).value <= Upper(bars, sd, i).value
              && Upper(bars, sd, i).value + Lower(bars, sd, i).value == 2.0 * Mean(Closes(bars)[i + 1 - BandWindow..i + 1])
  {
    RollingMeanOfSeries(Closes(bars), BandWindow, i);
    RollingStdOfSeries(Closes(bars), BandWindow, i, sd);
  }

  /** With a non-negative std the sell and buy rules never both hold, so a
      Sell signal is exactly the sell rule. */
  lemma SellIffSellRule(bars: seq<Bar>, regimes: seq<Regime>, sd: seq<real> -> real, i: nat)
    requires |regimes| == |bars| && i < |bars| && NonNegativeStd(sd)
    ensures !(SellRule(bars, regimes, sd, i) && BuyRule(bars, sd, i))
    ensures SignalAt(bars, regimes, sd, i) == Sell <==> SellRule(bars, regimes, sd, i)
  {
    BandsOrdered(bars, sd, i);
  }

  /** The default table: 0.2 / 0.5 / 0.8 / 0. */
  lemma DefaultPositions()
    ensures SuggestedPosition(RiskOn, DefaultConfig) == 0.2
    ensures SuggestedPosition(Volatile, DefaultConfig) == 0.5
    ensures SuggestedPosition(RiskOff, DefaultConfig) == 0.8
    ensures SuggestedPosition(LowLiquidity, DefaultConfig) == 0.0
  {
  }
}

=== FILE: tplus0.dfy ===
/** The intraday round-trip simulator: on each day it executes at most one
    100-share round trip against the day's low/high, guided by the prediction
    made the day before, and keeps a cash ledger beside a share position that
    never changes. */
module TPlus0Backtester {
  import opened Frame
  import opened Market
  import opened MultiPeriodPredictor

  /** Shares per leg, whatever the size of the held position. */
  const Lot: real := 100.0
  /** Default fee rate per leg. */
  const DefaultFee: real := 0.0002

  /** The `trade_type` column; `NoTrade` is the string "None". */
  datatype TradeType = NoTrade | BuyFirstSuccess | BuyFirstFailedClose | SellFirstSuccess | SellFirstFailedClose

  /** Trade types whose name contains "Success". */
  predicate IsSuccess(t: TradeType) {
    t == BuyFirstSuccess || t == SellFirstSuccess
  }

  datatype Outcome = Outcome(kind: TradeType, profit: real)

  function BuyCost(price: real, fee: real): real {
    price * Lot * (1.0 + fee)
  }

  function SellRevenue(price: real, fee: real): real {
    price * Lot * (1.0 - fee)
  }

  function ActionOf(p: Prediction): Action {
    match p
    case Placeholder => Wait
    case Predicted(f) => f.action
  }

  /** The opening leg fills: a BuyFirst whose buy price the low reaches, or a
      SellFirst/RangeT whose sell price the high reaches (NaN never fills). */
  predicate OpeningLegFills(bar: Bar, pred: Prediction) {
    match pred
    case Placeholder => false
    case Predicted(f) =>
      || (f.action == BuyFirst && Le(Some(bar.low), f.buyPrice))
      || ((f.action == SellFirst || f.action == RangeT) && Ge(Some(bar.high), f.sellPrice))
  }

  /** The closing leg reaches its target price instead of being forced at the close. */
  predicate ClosingLegFills(bar: Bar, pred: Prediction) {
    match pred
    case Placeholder => false
    case Predicted(f) =>
      if f.action == BuyFirst then Ge(Some(bar.high), f.sellPrice)
      else Le(Some(bar.low), f.buyPrice)
  }

  /** One day of the simulator: the trade type and the cash it produced. */
  function Fill(bar: Bar, pred: Prediction, fee: real): (r: Outcome)
    ensures r.kind == NoTrade <==> !OpeningLegFills(bar, pred)
    ensures r.kind == NoTrade ==> r.profit == 0.0
    ensures (r.kind == BuyFirstSuccess || r.kind == BuyFirstFailedClose) ==> ActionOf(pred) == BuyFirst
    ensures (r.kind == SellFirstSuccess || r.kind == SellFirstFailedClose) ==> ActionOf(pred) in {SellFirst, RangeT}
    ensures IsSuccess(r.kind) <==> OpeningLegFills(bar, pred) && ClosingLegFills(bar, pred)
    ensures IsSuccess(r.kind) ==>
              r.profit == SellRevenue(pred.forecast.sellPrice.value, fee) - BuyCost(pred.forecast.buyPrice.value, fee)
    ensures r.kind == BuyFirstFailedClose ==>
              r.profit == SellRevenue(bar.close, fee) - BuyCost(pred.forecast.buyPrice.value, fee)
    ensures r.kind == SellFirstFailedClose ==>
              r.profit == SellRevenue(pred.forecast.sellPrice.value, fee) - BuyCost(bar.close, fee)
  {
    match pred
    case Placeholder => Outcome(NoTrade, 0.0)
    case Predicted(f) =>
      if f.action == BuyFirst then
        if Le(Some(bar.low), f.buyPrice) then
          var cost := BuyCost(f.buyPrice.value, fee);
          if Ge(Some(bar.high), f.sellPrice) then Outcome(BuyFirstSuccess, SellRevenue(f.sellPrice.value, fee) - cost)
          else Outcome(BuyFirstFailedClose, SellRevenue(bar.close, fee) - cost)
        else Outcome(NoTrade, 0.0)
      else if f.action == SellFirst || f.action == RangeT then
        if Ge(Some(bar.high), f.sellPrice) then
          var revenue := SellRevenue(f.sellPrice.value, fee);
          if Le(Some(bar.low), f.buyPrice) then Outcome(SellFirstSuccess, revenue - BuyCost(f.buyPrice.value, fee))
          else Outcome(SellFirstFailedClose, revenue - BuyCost(bar.close, fee))
        else Outcome(NoTrade, 0.0)
      else Outcome(NoTrade, 0.0)
  }

  /** A successful round trip on a predictor band earns half an ATR per share
      less the fees on both legs, whichever leg came first. */
  lemma SuccessProfitOnBand(bar: Bar, daily: seq<Bar>, weekly: seq<Bar>, monthly: seq<Bar>, fee: real)
    requires |daily| >= AtrWindow && |weekly| > 0 && |monthly| > 0
    requires IsSuccess(Fill(bar, Predicted(PredictNextDay(daily, weekly, monthly)), fee).kind)
    ensures Fill(bar, Predicted(PredictNextDay(daily, weekly, monthly)), fee).profit
            == Lot * (0.5 * Atr(daily).value - 2.0 * fee * daily[|daily| - 1].close)
  {
    RollingMeanOfSeries(TrueRanges(daily), AtrWindow, |daily| - 1);
  }

  /** A closing leg forced at the close does worse than the target would have:
      the close is below an unreached sell price, or above an unreached buy price. */
  lemma ForcedCloseWorseThanTarget(bar: Bar, pred: Prediction, fee: real)
    requires WellFormed(bar) && 0.0 <= fee < 1.0
    requires OpeningLegFills(bar, pred) && !ClosingLegFills(bar, pred)
    requires pred.forecast.buyPrice.Some? && pred.forecast.sellPrice.Some?
    ensures Fill(bar, pred, fee).profit
            < SellRevenue(pred.forecast.sellPrice.value, fee) - BuyCost(pred.forecast.buyPrice.value, fee)
  {
    var f := pred.forecast;
    if f.action == BuyFirst {
      assert Fill(bar, pred, fee).kind == BuyFirstFailedClose;
      var gap := f.sellPrice.value - bar.close;
      var unit := Lot * (1.0 - fee);
      assert gap > 0.0 && unit > 0.0;
      assert gap * unit > 0.0;
      assert SellRevenue(f.sellPrice.value, fee) - SellRevenue(bar.close, fee) == gap * unit;
    } else {
      assert Fill(bar, pred, fee).kind == SellFirstFailedClose;
      var gap := bar.close - f.buyPrice.value;
      var unit := Lot * (1.0 + fee);
      assert gap > 0.0 && unit > 0.0;
      assert gap * unit > 0.0;
      assert BuyCost(bar.close, fee) - BuyCost(f.buyPrice.value, fee) == gap * unit;
    }
  }

  /** The worked example: buy 1700 / sell 1720 on a 1695-1725 day at the
      default fee is a BuyFirst success worth 1931.6. */
  lemma BuyFirstSuccessExample()
    ensures var f := Forecast(0, Up, Up, Up, BuyFirst, Some(1700.0), Some(1720.0));
            Fill(Bar(1, 1700.0, 1725.0, 1695.0, 1710.0, 1.0), Predicted(f), DefaultFee)
            == Outcome(BuyFirstSuccess, 1931.6)
  {
  }

  /** The same day with a high of 1710: the sell leg is forced at the close. */
  lemma BuyFirstFailedCloseExample()
    ensures var f := Forecast(0, Up, Up, Up, BuyFirst, Some(1700.0), Some(1720.0));
            Fill(Bar(1, 1700.0, 1710.0, 1695.0, 1710.0, 1.0), Predicted(f), DefaultFee)
            == Outcome(BuyFirstFailedClose, 1710.0 * 100.0 * 0.9998 - 1700.0 * 100.0 * 1.0002)
  {
  }

  /** One row of the result frame, including the benchmark column. */
  datatype LedgerRow = LedgerRow(
    date: int,
    close: real,
    kind: TradeType,
    profit: real,
    totalCash: real,
    stockValue: real,
    totalValue: real,
    benchmarkValue: real)

  datatype Backtest = Backtest(initialCash: real, rows: seq<LedgerRow>)

  /** At least two days (with fewer the result frame is empty and indexing
      it by date fails), and a prediction for every day but the last. */
  predicate Covers(daily: seq<Bar>, preds: seq<Prediction>) {
    |daily| >= 2 && |preds| >= |daily| - 1
  }

  /** Day `i` trades on the prediction made on day `i - 1`. */
  function DayOutcome(daily: seq<Bar>, preds: seq<Prediction>, fee: real, i: nat): Outcome
    requires Covers(daily, preds) && 1 <= i < |daily|
  {
    Fill(daily[i], preds[i - 1], fee)
  }

  /** Total profit of days `from` up to (not including) `to`. */
  function ProfitSum(daily: seq<Bar>, preds: seq<Prediction>, fee: real, from: nat, to: nat): real
    requires Covers(daily, preds) && 1 <= from <= to <= |daily|
    decreases |daily| - from
  {
    if from == to then 0.0
    else DayOutcome(daily, preds, fee, from).profit + ProfitSum(daily, preds, fee, from + 1, to)
  }

  /** Row `row` records day `day`: its close, its outcome, the unchanged share
      position valued at the close, and the benchmark of the initial cash
      plus the same shares. */
  predicate RecordsDay(row: LedgerRow, daily: seq<Bar>, preds: seq<Prediction>, shares: int, fee: real, initialCash: real, day: nat)
    requires Covers(daily, preds) && 1 <= day < |daily|
  {
    && row.date == daily[day].date
    && row.close == daily[day].close
    && Outcome(row.kind, row.profit) == DayOutcome(daily, preds, fee, day)
    && row.stockValue == (shares as real) * daily[day].close
    && row.totalValue == row.totalCash + row.stockValue
    && row.benchmarkValue == initialCash + (shares as real) * daily[day].close
  }

  /** The ledger from day `i` on, entered with `cash` in hand. */
  function Ledger(daily: seq<Bar>, preds: seq<Prediction>, shares: int, fee: real, initialCash: real, cash: real, i: nat)
    : (r: seq<LedgerRow>)
    requires Covers(daily, preds) && 1 <= i <= |daily|
    decreases |daily| - i
    ensures |r| == |daily| - i
    ensures forall j :: 0 <= j < |r| ==> RecordsDay(r[j], daily, preds, shares, fee, initialCash, i + j)
    ensures forall j :: 0 <= j < |r| ==> r[j].totalCash == cash + ProfitSum(daily, preds, fee, i, i + j + 1)
  {
    if i == |daily| then []
    else
      var o := DayOutcome(daily, preds, fee, i);
      var c := cash + o.profit;
      var stock := (shares as real) * daily[i].close;
      var row := LedgerRow(daily[i].date, daily[i].close, o.kind, o.profit, c, stock, c + stock, initialCash + stock);
      var rest := Ledger(daily, preds, shares, fee, initialCash, c, i + 1);
      assert forall j :: 1 <= j < |daily| - i ==> ([row] + rest)[j] == rest[j - 1];
      [row] + rest
  }

  /** `TPlus0Backtester.run`: cash starts at the value of the held shares on
      the first day, and every later day gets one row, the benchmark column
      included. */
  function Run(daily: seq<Bar>, preds: seq<Prediction>, shares: int, fee: real): (r: Backtest)
    requires Covers(daily, preds)
    ensures r.initialCash == (shares as real) * daily[0].close
    ensures |r.rows| == |daily| - 1
    ensures forall j :: 0 <= j < |r.rows| ==> RecordsDay(r.rows[j], daily, preds, shares, fee, r.initialCash, j + 1)
    ensures forall j :: 0 <= j < |r.rows| ==> r.rows[j].totalCash == r.initialCash + ProfitSum(daily, preds, fee, 1, j + 2)
  {
    var cash := (shares as real) * daily[0].close;
    Backtest(cash, Ledger(daily, preds, shares, fee, cash, cash, 1))
  }

  lemma {:induction false} ProfitSumSnoc(daily: seq<Bar>, preds: seq<Prediction>, fee: real, from: nat, to: nat)
    requires Covers(daily, preds) && 1 <= from <= to < |daily|
    ensures ProfitSum(daily, preds, fee, from, to + 1)
            == ProfitSum(daily, preds, fee, from, to) + DayOutcome(daily, preds, fee, to).profit
    decreases |daily| - from
  {
    if from < to {
      ProfitSumSnoc(daily, preds, fee, from + 1, to);
    }
  }

  /** Cash moves only by the day's profit: each row's cash is the previous
      row's cash (the initial cash for the first row) plus its own profit. */
  lemma CashMovesOnlyByProfit(daily: seq<Bar>, preds: seq<Prediction>, shares: int, fee: real, j: nat)
    requires Covers(daily, preds) && j < |daily| - 1
    ensures var r := Run(daily, preds, shares, fee);
            var before := if j == 0 then r.initialCash else r.rows[j - 1].totalCash;
            r.rows[j].totalCash == before + r.rows[j].profit
  {
    if j > 0 {
      ProfitSumSnoc(daily, preds, fee, 1, j + 1);
    }
  }

  /** The strategy's lead over the benchmark on any day is exactly the profit
      accumulated so far. */
  lemma LeadIsAccumulatedProfit(daily: seq<Bar>, preds: seq<Prediction>, shares: int, fee: real, j: nat)
    requires Covers(daily, preds) && j < |daily| - 1
    ensures var row := Run(daily, preds, shares, fee).rows[j];
            row.totalValue - row.benchmarkValue == ProfitSum(daily, preds, fee, 1, j + 2)
  {
  }

  lemma {:induction false} ProfitSumOfIdleDays(daily: seq<Bar>, preds: seq<Prediction>, fee: real, from: nat, to: nat)
    requires Covers(daily, preds) && 1 <= from <= to <= |daily|
    requires forall k :: 0 <= k < |preds| ==> ActionOf(preds[k]) == Wait
    ensures ProfitSum(daily, preds, fee, from, to) == 0.0
    decreases |daily| - from
  {
    if from < to {
      ProfitSumOfIdleDays(daily, preds, fee, from + 1, to);
    }
  }

  /** When every prediction is Wait nothing trades and the strategy's value
      equals the benchmark on every day. */
  lemma IdlePredictionsTrackBenchmark(daily: seq<Bar>, preds: seq<Prediction>, shares: int, fee: real)
    requires Covers(daily, preds)
    requires forall k :: 0 <= k < |preds| ==> ActionOf(preds[k]) == Wait
    ensures forall j :: 0 <= j < |daily| - 1 ==>
              && Run(daily, preds, shares, fee).rows[j].kind == NoTrade
              && Run(daily, preds, shares, fee).rows[j].totalValue == Run(daily, preds, shares, fee).rows[j].benchmarkValue
  {
    forall j | 0 <= j < |daily| - 1
      ensures Run(daily, preds, shares, fee).rows[j].totalValue == Run(daily, preds, shares, fee).rows[j].benchmarkValue
    {
      ProfitSumOfIdleDays(daily, preds, fee, 1, j + 2);
    }
  }
}
